=== FILE: README.md ===
# webpack-atoms: a Dafny model of the atom composition engine

webpack-atoms is a library of small configuration fragments ("atoms") for
webpack: loader descriptors, rules and plugin option records. `createAtoms`
takes a set of construction options and returns one atom set. Every factory
in that set closes over one resolved environment (production or not, the
vendor pattern, the browser targets, the asset root, the babel config) and
over one `ident` counter, which numbers the postcss loaders it creates.

This project models that composition logic as pure Dafny functions over
immutable data:

- the environment resolution at the top of a construction;
- the loader factories, with their option merging;
- the extraction composer, which decides between extracting CSS to files
  and injecting it with the style loader;
- the script, asset and style rules, and the `internal` / `external`
  overlays;
- the option records of the `define`, `loaderOptions`, `minifyJs`,
  `extractCss` and `html` plugins.

JavaScript values are a `Value` datatype. Options objects are
`map<string, Value>`. A few JavaScript rules are written out explicitly:

- object spread is map union, where the right-hand side wins;
- object rest is key removal;
- a destructuring default applies only to `undefined`;
- `== undefined` is true for both `undefined` and `null`;
- truthiness follows JavaScript.

The `ident` counter is threaded explicitly: every factory that uses it takes
the current value and returns its result paired with the advanced value
(`Counted`). One atom set is an environment plus a counter that starts at 0.
The counters of two constructions are independent: neither sees the other's
calls, so the same identifier names recur across constructions (every
construction's first `rules.css` names its postcss loaders `postcss-1` and
`postcss-2`). Loader modules are opaque
distinct names. Regular expressions are opaque tokens that are placed in
rules but never matched.

Modules, in dependency order:

- `Values` (values.dfy): the value model and the JavaScript operations above.
- `Decimal` (decimal.dfy): decimal rendering of the counter and its inverse.
- `Environment` (environment.dfy): construction-time destructuring, browser
  resolution and the production flag.
- `Loaders` (loaders.dfy): `loaders.*`.
- `Extraction` (extraction.dfy): `makeExtractLoaders` and the head decision.
- `Rules` (rules.dfy): rule descriptors and the filter overlays.
- `ScriptRules` (script_rules.dfy): `rules.js`, `js.inlineCss`, yaml, the
  asset rules and astroturf.
- `StyleRules` (style_rules.dfy): `rules.css`, `postcss`, `less`, `sass`,
  `fastSass` and their variants.
- `Plugins` (plugins.dfy): the plugin option records.
- `Atoms` (atoms.dfy): the facade, and properties of whole constructions.
- `Findings` (findings.dfy): two defects, each modelled as written and corrected.

The style rules are modelled as written. In `postcss`, `less`, `sass` and
`fastSass`, the module branch is built from the construction options rather
than the call's options (see Findings). The corrected rules are
gathered in `Findings.IntendedStyleRule`. `StyleRules.StyleRule`,
`Internal` and `External` use the as-written rules, so that the model
describes what the library does.

`loaders.postcss` is not idempotent. Every call takes the next counter value
(src/index.js:239), so two calls with equal options differ in `ident`
unless the options name one: the caller's remaining options are spread after
the generated name (src/index.js:250), so a caller `ident` wins, while the
counter still advances on both calls (`Loaders.Postcss`, `Atoms.PostcssSeries`).

## Model

| member | source | states |
|---|---|---|
| `Decimal.NatToString` | src/index.js:239 | the counter renders as a non-empty string of decimal digits with no leading zero |
| `Decimal.ParseInvertsNatToString` | src/index.js:239 | reading the rendered counter back gives the counter value: the rendering loses nothing |
| `Decimal.NatToStringInjective` | src/index.js:239 | two counter values render the same exactly when they are equal |
| `Decimal.PrefixedNumeralsDistinct` | src/index.js:239 | a fixed prefix followed by two renderings gives the same string exactly when the values are equal |
| `Environment.ResolveBrowsers` | src/index.js:146-147 | when the config file is ignored or absent, a truthy explicit list is kept and anything else becomes the default list; when a config file is found and not ignored, the explicit value is kept unchanged, even undefined |
| `Environment.CreateEnv` | src/index.js:135-173 | each construction option takes its default only when it is undefined and is kept as given otherwise (babel config `{}`, asset root `""`, vendor pattern `/node_modules/`, injection flag `true`); `env` falls back to `NODE_ENV`; production holds exactly when `env` is the string `production`; browsers resolve as in `ResolveBrowsers` |
| `Extraction.MakeExtractLoaders` | src/index.js:165-171 | the chain is one head loader followed by the given chain, in order; the head is extraction for `extract: true` and the fallback for `extract: false` when the fallback is truthy; in general it is the decision of `Head` |
| `Extraction.EnvironmentDecidesWhenUnset` | src/index.js:165-211 | with `extract` left out, production extracts, and development injects exactly when the injection flag is truthy |
| `Loaders.MiniCssExtract` | src/index.js:201-211 | when disabled, the truthy fallback or else the style loader; when enabled, the extraction loader carrying exactly the options other than `disable` and `fallback`; an undefined `disable` means not production and the injection flag on |
| `Loaders.Css` | src/index.js:213-222 | the caller's keys win and the unset defaults keep their built-in values: `sourceMap` is not-production, `camelCase` is `dashes`, plus the local identifier template; there are no other keys |
| `Loaders.Astroturf` | src/index.js:228-231 | extension `.module.css` unless the caller gives one; every caller key is carried |
| `Loaders.Postcss` | src/index.js:233-253 | the counter advances by exactly one; `ident` is `postcss-` followed by the new value unless the caller gives one; `plugins` closes over the caller's browsers, or the resolved list when those are undefined; every other caller key is carried and none is added |
| `Loaders.File` | src/index.js:270-276 | the caller's keys win; `name` defaults to the asset root followed by `[name]-[hash].[ext]` |
| `Loaders.Url` | src/index.js:278-285 | the caller's keys win; `limit` defaults to 10000 and `name` to the asset-root template |
| `Loaders.Js` | src/index.js:287-290 | the babel loader gets the argument, or the construction's babel config when the argument is undefined |
| `Rules.MakeExternalOnly` | src/index.js:149-155 | the derived factory sets `include` to the vendor pattern and leaves every other property, and the counter, as the original factory gives them |
| `Rules.MakeInternalOnly` | src/index.js:157-163 | the derived factory sets `exclude` to the vendor pattern and leaves every other property, and the counter, as the original factory gives them |
| `Rules.InternalExternalDisjoint` | src/index.js:149-163 | no path is admitted by both the internal and the external variant of one factory, however conditions are read |
| `Rules.OverlaysCommute` | src/index.js:149-163 | applying both overlays gives the same rule in either order |
| `ScriptRules.JsRule` | src/index.js:312-316 | the script test, the vendor pattern excluded, and one babel loader carrying the call's options |
| `ScriptRules.CssLiteralFor` | src/index.js:321 | the appended cssLiteral loader carries exactly the call's `tagName` and `extension`, present even when undefined |
| `ScriptRules.JsInlineCss` | src/index.js:318-323 | the script rule for the options without `tagName` and `extension`, with the same test and filters and its chain extended by one cssLiteral loader; babel stays first and `exclude` stays the vendor pattern |
| `ScriptRules.DefaultUrl` | src/index.js:337 | the url loader called with no options has exactly the default limit and name |
| `ScriptRules.DefaultFile` | src/index.js:354 | the file loader called with no options has exactly the default name |
| `ScriptRules.AssetRulesNameUnderRoot` | src/index.js:336-370 | the fonts, images, audio/video and catch-all rules each have exactly one loader, and it names emitted files under the construction's asset root |
| `ScriptRules.AssetRulesInlineLimit` | src/index.js:336-370 | fonts and images are inlined below 10000 bytes; media and the catch-all go through the file loader, which has no inline limit |
| `ScriptRules.FilesRuleSparesScripts` | src/index.js:336-370 | only the catch-all sets a filter, and it excludes the script rule's own test, so scripts never fall through to the file loader |
| `ScriptRules.AstroturfRule` | src/index.js:376-379 | the script test and one astroturf loader whose options are the caller's over the `.module.css` default |
| `ScriptRules.AstroturfWithExtension` | src/index.js:381-382 | the given extension is a default: the loader's keys are the caller's plus `extension`, and every caller key wins |
| `ScriptRules.AstroturfSass` | src/index.js:381 | `.module.scss` unless the caller gives an extension; every caller key is carried |
| `ScriptRules.AstroturfLess` | src/index.js:382 | `.module.less` unless the caller gives an extension; every caller key is carried |
| `StyleRules.CssBranch` | src/index.js:390-399 | the inner css factory takes one identifier and gives a bare branch for `.css` with three loaders |
| `StyleRules.CssBranchAt0` | src/index.js:392-393 | the head is decided by the call's `extract`, with the style loader as fallback |
| `StyleRules.CssBranchChain` | src/index.js:390-399 | the whole chain of a css branch, position by position |
| `StyleRules.PostcssOnBrowsers` | src/index.js:396 | postcss called on `browsers` alone has exactly `ident` and `plugins`: the counter's next name and the plugins closed over those browsers |
| `StyleRules.CssRule` | src/index.js:401-406 | `rules.css` is a bare two-way `oneOf`, with the module test first and the `.css` test second; it takes two identifiers |
| `StyleRules.CssRuleBranches` | src/index.js:401-406 | the first alternative is the inner factory on the call's options plus `modules: true`; the second is the inner factory on the call's options, with the advanced counter |
| `StyleRules.CssRuleHeads` | src/index.js:390-406 | both alternatives of `rules.css` decide extraction from the call's `extract` |
| `StyleRules.CssRuleIdents` | src/index.js:396-406 | the module alternative takes the first identifier and the general one the second |
| `StyleRules.CssRuleModules` | src/index.js:395-405 | css-loader sees `modules: true` in the module alternative and the call's own `modules` in the general one |
| `StyleRules.CssPassesModules` | src/index.js:395 | css-loader in a css branch receives the call's `modules` unchanged |
| `StyleRules.PostcssBranch` | src/index.js:415-424 | the inner postcss factory takes one identifier and gives a bare branch for `.css` with three loaders |
| `StyleRules.PostcssBranchAt0` | src/index.js:417-418 | the head is decided by the call's `extract`, with the uncalled style factory as fallback |
| `StyleRules.PostcssBranchChain` | src/index.js:415-424 | the whole chain of a postcss branch, position by position |
| `StyleRules.PostcssFallbackIsFactory` | src/index.js:418 | when a postcss branch does not extract, its head is the style factory function itself, not a loader descriptor |
| `StyleRules.PostcssPair` | src/index.js:426-431 | a postcss pair is a bare two-way `oneOf`, with the module test first; it takes two identifiers |
| `StyleRules.PostcssPairBranches` | src/index.js:426-431 | the alternatives of a pair are the inner factory on the module base plus `modules: true`, then the inner factory on the call's options |
| `StyleRules.PostcssRule` | src/index.js:426-431 | `rules.postcss` is a two-way `oneOf` with the module test first; it takes two identifiers |
| `StyleRules.PostcssRuleBranches` | src/index.js:426-431 | the module alternative is built from the construction options plus `modules: true`; the general one from the call's options |
| `StyleRules.PostcssRuleHeads` | src/index.js:417-429 | the module alternative decides extraction from the construction options' `extract`; the general one from the call's |
| `StyleRules.PostcssNamesUnnamed` | src/index.js:421 | postcss on options without `ident` takes the counter's next name |
| `StyleRules.PostcssRuleIdents` | src/index.js:421-429 | the module alternative takes the first identifier unless the construction options name one; the general one takes the second unless the call names one |
| `StyleRules.PostcssRuleLoaders` | src/index.js:421-429 | the postcss loader of the module alternative gets the construction options without `modules`; that of the general one gets the call's |
| `StyleRules.PreprocessorBranch` | src/index.js:440-450 | the inner less/sass/fastSass factory takes one identifier and gives a bare branch with four loaders |
| `StyleRules.PreprocessorBranchAt0` | src/index.js:442-443 | the head is decided by the call's `extract`, with the style loader as fallback |
| `StyleRules.PreprocessorBranchChain` | src/index.js:440-450 | the whole chain of a preprocessor branch, position by position |
| `StyleRules.PreprocessorPair` | src/index.js:452-457 | a preprocessor pair is a bare two-way `oneOf`, with the module test first; it takes two identifiers |
| `StyleRules.PreprocessorPairBranches` | src/index.js:452-457 | the alternatives of a pair are the inner factory on the module base plus `modules: true`, then the inner factory on the call's options |
| `StyleRules.PreprocessorRule` | src/index.js:452-457 | `rules.less`, `rules.sass` and `rules.fastSass` are two-way `oneOf`s with the module test first; each takes two identifiers |
| `StyleRules.PreprocessorRuleBranches` | src/index.js:452-457 | the module alternative is built from the construction options plus `modules: true`; the general one from the call's options |
| `StyleRules.PreprocessorRuleHeads` | src/index.js:442-455 | the module alternative decides extraction from the construction options' `extract`; the general one from the call's |
| `StyleRules.PreprocessorRuleIdents` | src/index.js:446-455 | the module alternative takes the first identifier and the general one the second |
| `StyleRules.PreprocessorRuleLoaders` | src/index.js:447-455 | the preprocessor loader of the module alternative gets the construction options; that of the general one gets the call's |
| `StyleRules.StyleRule` | src/index.js:401-512 | every style rule is a two-way `oneOf` with the module test first, takes two identifiers, and has at least three loaders per alternative |
| `StyleRules.StyleRuleHeadsWhenUnset` | src/index.js:389-515 | when neither the construction options nor the call set `extract`, both alternatives of every style rule leave extraction to the environment, with that rule's fallback |
| `StyleRules.Internal` | src/index.js:407 | `rules.<style>.internal` excludes the vendor pattern, sets no `include`, keeps the `oneOf` pair and takes two identifiers |
| `StyleRules.External` | src/index.js:408 | `rules.<style>.external` includes only the vendor pattern, sets no `exclude`, keeps the `oneOf` pair and takes two identifiers |
| `Plugins.Define` | src/index.js:528-532 | the serialized environment name sits under `process.env.NODE_ENV`, and the caller's defines win over it |
| `Plugins.LoaderOptions` | src/index.js:538-543 | exactly `options`, `minimize` and `debug`: the caller's options nested, `minimize` equal to production and `debug` to its negation |
| `Plugins.LoaderOptionsDebugMatchesSourceMaps` | src/index.js:538-543 | the shim's `debug` flag equals the default `sourceMap` css-loader gets at line 216: both are on exactly outside production |
| `Plugins.MinifyJs` | src/index.js:553-565 | every caller key other than `terserOptions` is carried; the cache, parallel, exclusion and source-map defaults stay when the caller does not set them |
| `Plugins.MinifyJsKeys` | src/index.js:553-565 | the minifier options have exactly the built-in keys, `terserOptions` and the caller's keys |
| `Plugins.MinifyJsMergesTerserOptions` | src/index.js:559-563 | the caller's `terserOptions` are merged key by key over `ecma: 8, ie8: false` rather than replacing them |
| `Plugins.ExtractCss` | src/index.js:571-575 | content-hashed file names unless the caller names them; every caller key wins |
| `Plugins.Html` | src/index.js:583-588 | script injection on and the bundled template, both overridable by the caller |
| `Atoms.CreateAtoms` | src/index.js:135-175 | a construction closes over its own options and starts its counter at 0; production holds exactly when the resolved `env` is `production` |
| `Atoms.DefaultAtoms` | src/index.js:623-626 | the default export is built with no options: `NODE_ENV`, the vendor pattern, an empty asset root, injection in development and an empty babel config; it has the default browsers unless a config file is found |
| `Atoms.PostcssIdentInjective` | src/index.js:239 | two counter values give the same postcss identifier exactly when they are equal |
| `Atoms.PostcssSeries` | src/index.js:233-253 | successive postcss calls advance the counter by their number; the `i`-th unnamed call is `postcss-(start+i+1)`; unnamed calls get pairwise distinct identifiers |
| `Atoms.ProductionCssExtracts` | src/index.js:389-406 | a production construction extracts in both alternatives of `rules.css` when the call leaves `extract` out |
| `Atoms.DevelopmentCssInjects` | src/index.js:389-406 | a development construction with the default injection flag injects with the style loader in both alternatives of `rules.css` when the call leaves `extract` out |
| `Atoms.ProductionStyleRulesExtract` | src/index.js:389-515 | a production construction without `extract` extracts in both alternatives of every style rule whose call leaves `extract` out |
| `Atoms.DevelopmentStyleRulesInject` | src/index.js:389-515 | a development construction with the default injection flag and without `extract` injects with the rule's fallback in both alternatives of every style rule whose call leaves `extract` out |
| `Atoms.DevelopmentDefaults` | src/index.js:139-173 | a construction for development that leaves out the injection flag is not production and has the flag on |
| `Atoms.FirstCssRuleIdents` | src/index.js:175-239 | whatever the options, the first `rules.css` of a construction names its postcss loaders `postcss-1` and `postcss-2` |
| `Findings.ProductionEnv` | src/index.js:139-173 | a construction with `env: 'production'` and nothing else is a production build |
| `Findings.ProductionHeads` | src/index.js:165-211 | in production, an undefined `extract` extracts and `extract: false` falls back |
| `Findings.ProductionCallExposesDefect` | src/index.js:426-458 | on `createAtoms({ env: 'production' })`, `rules.postcss({ extract: false })` and `rules.less({ extract: false })` extract in the module alternative and not in the general one, and less-loader receives `env: 'production'` |
| `Findings.PostcssModuleBranchIgnoresCall` | src/index.js:428 | as written, `rules.postcss({ extract: false })` in production still extracts in the module alternative while the general one falls back |
| `Findings.LessModuleBranchIgnoresCall` | src/index.js:454 | as written, `rules.less({ extract: false })` in production extracts in the module alternative and injects in the general one |
| `Findings.LessModuleBranchLeaksConstruction` | src/index.js:447-454 | as written, the module alternative of `rules.less` hands less-loader the construction's `env` option |
| `Findings.PostcssRuleIntended` | src/index.js:426-431 | the corrected `rules.postcss` is a two-way `oneOf` with the module test first and takes two identifiers |
| `Findings.PostcssIntendedBranches` | src/index.js:426-431 | both corrected alternatives are built from the call's options |
| `Findings.PostcssIntendedHeadsAgree` | src/index.js:417-429 | both corrected alternatives decide extraction from the call's `extract`, so they always agree |
| `Findings.PostcssIntendedLoaders` | src/index.js:421-429 | both corrected alternatives hand postcss the call's options without `modules` |
| `Findings.PreprocessorRuleIntended` | src/index.js:452-457 | the corrected preprocessor rules are two-way `oneOf`s with the module test first and take two identifiers |
| `Findings.PreprocessorIntendedBranches` | src/index.js:452-457 | both corrected alternatives are built from the call's options |
| `Findings.PreprocessorIntendedHeadsAgree` | src/index.js:442-455 | both corrected alternatives decide extraction from the call's `extract` |
| `Findings.PreprocessorIntendedLoaders` | src/index.js:447-455 | both corrected alternatives hand the preprocessor the call's options without `modules` and `browsers` |
| `Findings.IntendedRulesHonourCall` | src/index.js:426-457 | on the call that exposes the defect, the corrected `rules.postcss` and `rules.less` inject in both alternatives |
| `Findings.IntendedStyleRule` | src/index.js:401-512 | every corrected style rule is a two-way `oneOf` with the module test first and takes two identifiers |
| `Findings.IntendedStyleRulesAgree` | src/index.js:389-515 | in every corrected style rule, both alternatives decide extraction from the call's `extract`, with that rule's fallback |
| `Findings.JsRuleIgnoresBabelConfig` | src/index.js:312-315 | as written, `rules.js()` hands babel an empty object, not the construction's babel config, whenever that config is not empty |
| `Findings.JsRuleIntended` | src/index.js:287-315 | the corrected `rules.js` keeps the test and the vendor exclusion, and hands babel the construction's babel config when the call gives no options, else the call's options |
| `Findings.JsRuleIntendedAgreesWhenGiven` | src/index.js:312-315 | the corrected `rules.js` equals the original for every call that gives options |

## Left out

- `stats`, the builtin plugin spread and `./stats` / `./plugins`: their sources are not part of this model.
- `plugins.minifyCss`, `moment`, `copy`, `unusedFiles` and `favicons`: they hand their arguments to third-party constructors unchanged, and there is nothing to state about them.
- The plugin and loader constructors themselves: a plugin is modelled as its constructor's name and the options record it receives.
- `require.resolve` paths: each loader is an opaque, distinct `LoaderName`.
- Regular-expression matching: patterns are opaque tokens. `Rules.Admits` takes the matching relation as a parameter.
- The body of the postcss `plugins` callback, which webpack runs later: it is the value `PostcssPlugins(browsers, extra)`, recording what it closes over.
- `process.env.NODE_ENV` and the browserslist config probe: they are inputs (`nodeEnv`, `configFound`).
- `__dirname`: the html template path is a parameter of `Plugins.Html`.
- `JSON.stringify`: it is the unevaluated `JsonOf(v)`.
- Non-object construction options, such as a number or a string given as `options`: the model takes a map.
- Call arguments: every call argument is a map in the model, and an omitted argument is `{}`. That is what the `= {}` default of most factories gives; `loaders.astroturf`, `rules.astroturf.sass` / `.less` and the outer `rules.css`, `postcss`, `less`, `sass` and `fastSass` have no default but only spread the argument, and spreading `undefined` adds nothing (src/index.js:228-229, 381-382, 401-404). `loaders.miniCssExtract` has no default for its destructuring pattern, so an omitted or `null` argument throws a `TypeError` (src/index.js:201). `makeExtractLoaders` throws on a `null` first argument, and on a missing `config` when it reads `config.fallback` (src/index.js:165, 167). A `null` argument also throws in the destructuring of `loaders.postcss`, `rules.js.inlineCss`, `rules.css`, `postcss`, `less`, `sass`, `fastSass` and `plugins.minifyJs` (src/index.js:234, 319, 390, 415, 440, 466, 492, 553). `rules.js(null)` does not throw but hands babel `null` (src/index.js:312, 287). Other primitives are converted to objects by the destructuring (a number acts as `{}`, a string contributes index keys). None of these cases is modelled.
- Loaders.Postcss: the counter is an unbounded natural number. In JavaScript `++ident` acts on a double, which stops advancing at 2^53, and the template renders values from 10^21 in exponent form; "advances by exactly one" holds only below 2^53.
- Atoms.PostcssSeries: the generated identifiers are pairwise distinct only while the counter stays below 2^53, for the same reason.
- Values.Num: caller numbers are integers; NaN, infinities and fractions are not modelled, so the truthiness of `NaN` and of fractional values is not covered.
- The contracts of `ScriptRules.YamlRule`, `FontsRule`, `ImagesRule`, `AudioVideoRule` and `FilesRule` and of `Loaders.PassThrough` only describe their shape; what they share is stated by the asset-rule lemmas in the table, and the pass-through loaders by the rules that use them (`StyleRules.PreprocessorBranchChain`, `ScriptRules.CssLiteralFor`).
- Environment.CreateEnv: requires `assetRelativeRoot` to be a string or undefined, as the options type declares; the `String()` coercion of other values in the template literal is not modelled.
- Plugins.MinifyJs: a non-object `terserOptions` contributes no keys to the merge, as spreading a primitive does; spreading an array, a string or a loader descriptor (whose `loader` and `options` properties would be copied) into an object is not modelled key by key.
- `Atoms.PostcssSeries` models successive `loaders.postcss` calls as a loop over their options. The interleaving of those calls with other factory calls is not modelled beyond the counter each rule threads.
- Mutation and object identity: the overlays assign to the rule returned by the original factory (src/index.js:153, 161). Every factory of the library builds a fresh rule object, so the model treats this as building a new rule; a caller's factory given to `makeExternalOnly` or `makeInternalOnly` that returns a shared object would see that object changed in place, which is not modelled. Object identity is not modelled either: the pass-through loaders hand back the caller's own object and `loaders.js()` hands back the construction's single `babelConfig` object, while the model compares values only.

## Findings

| source | as written | input that shows it | evidently intended | confidence | as-written member | corrected member |
|---|---|---|---|---|---|---|
| src/index.js:428 | The module alternatives of `rules.postcss`, `rules.less`, `rules.sass` and `rules.fastSass` spread `options`, which is the `createAtoms` argument, not the call's `opts` (also lines 454, 480 and 507). | `createAtoms({ env: 'production' }).rules.postcss({ extract: false })`: the module alternative extracts while the general one falls back. With `rules.less` the same call also hands less-loader the construction's `env: 'production'`. | Both alternatives are built from the call's options, as `rules.css` does at line 403. | not executed | `Findings.ProductionCallExposesDefect`, `Findings.PostcssModuleBranchIgnoresCall`, `Findings.LessModuleBranchIgnoresCall`, `Findings.LessModuleBranchLeaksConstruction` | `Findings.PostcssRuleIntended`, `Findings.PreprocessorRuleIntended`, with `Findings.PostcssIntendedHeadsAgree`, `Findings.PreprocessorIntendedHeadsAgree`, `Findings.PostcssIntendedLoaders`, `Findings.PreprocessorIntendedLoaders`, `Findings.IntendedRulesHonourCall`, `Findings.IntendedStyleRule` and `Findings.IntendedStyleRulesAgree` |
| src/index.js:312 | `rules.js` defaults its argument to `{}` and always passes an object to `loaders.js`, whose default at line 287 is the construction's `babelConfig`. | `createAtoms({ babelConfig: { presets: ['x'] } }).rules.js()`: babel-loader receives `{}`. | With no argument, babel-loader receives the construction's `babelConfig`. | not executed | `Findings.JsRuleIgnoresBabelConfig` | `Findings.JsRuleIntended`, with `Findings.JsRuleIntendedAgreesWhenGiven` |

=== FILE: atoms.dfy ===
/**
  The facade: one construction closes over one environment and one fresh
  `ident` counter. Threading the counter explicitly shows that a
  construction's identifiers start from its own baseline and never depend
  on another construction.
 */
module Atoms {
  import opened Values
  import opened Decimal
  import opened Environment
  import opened Loaders
  import opened Extraction
  import opened Rules
  import opened StyleRules

  /** The state of one atom set: its environment and its counter. */
  datatype Atoms = Atoms(env: Env, ident: nat)

  /** `createAtoms`: the environment from the options and a counter at 0. */
  function CreateAtoms(options: Options, nodeEnv: Value, configFound: bool): (a: Atoms)
    requires AssetRootIsString(options)
    ensures a.ident == 0
    ensures a.env.options == options
    ensures a.env.production <==> Default(Get(options, "env"), nodeEnv) == Str("production")
  {
    Atoms(CreateEnv(options, nodeEnv, configFound), 0)
  }

  /** The module's default export, constructed with no options. */
  function DefaultAtoms(nodeEnv: Value, configFound: bool): (a: Atoms)
    ensures a.ident == 0 && a.env.options == map[]
    ensures a.env.env == nodeEnv
    ensures a.env.vendorRegex == VendorModuleRegex
    ensures a.env.assetRelativeRoot == ""
    ensures a.env.disableMiniExtractInDev == Bool(true)
    ensures a.env.babelConfig == Obj(map[])
    ensures !configFound ==> a.env.supportedBrowsers == DefaultBrowsers
    ensures configFound ==> a.env.supportedBrowsers == Undefined
  {
    CreateAtoms(map[], nodeEnv, configFound)
  }

  /** The `n`-th identifier of a construction is unique to `n`. */
  lemma PostcssIdentInjective(a: nat, b: nat)
    ensures PostcssIdent(a) == PostcssIdent(b) <==> a == b
  {
    PrefixedNumeralsDistinct("postcss-", a, b);
  }

  /** Successive `loaders.postcss` calls from a counter value `start`: the
      `i`-th call is named `postcss-(start + i + 1)` unless the caller names
      it, so the generated names are pairwise distinct. */
  method PostcssSeries(env: Env, calls: seq<Options>, start: nat) returns (specs: seq<LoaderSpec>, next: nat)
    ensures next == start + |calls|
    ensures |specs| == |calls|
    ensures forall i :: 0 <= i < |specs| ==>
      specs[i].loader == PostcssLoader && specs[i].options.Obj? && "ident" in specs[i].options.fields
    ensures forall i :: 0 <= i < |specs| && "ident" !in calls[i] ==>
      specs[i].options.fields["ident"] == Str(PostcssIdent(start + i + 1))
    ensures forall i, j :: 0 <= i < j < |specs| && "ident" !in calls[i] && "ident" !in calls[j] ==>
      specs[i].options.fields["ident"] != specs[j].options.fields["ident"]
  {
    specs := [];
    next := start;
    for k := 0 to |calls|
      invariant next == start + k
      invariant |specs| == k
      invariant forall i :: 0 <= i < k ==>
        specs[i].loader == PostcssLoader && specs[i].options.Obj? && "ident" in specs[i].options.fields
      invariant forall i :: 0 <= i < k && "ident" !in calls[i] ==>
        specs[i].options.fields["ident"] == Str(PostcssIdent(start + i + 1))
    {
      var r := Postcss(env, calls[k], next);
      specs := specs + [r.value];
      next := r.ident;
    }
    forall i, j | 0 <= i < j < |specs| && "ident" !in calls[i] && "ident" !in calls[j]
      ensures specs[i].options.fields["ident"] != specs[j].options.fields["ident"]
    {
      PostcssIdentInjective(start + i + 1, start + j + 1);
    }
  }

  /** A production construction extracts in both branches of `rules.css`
      when the call leaves `extract` out. */
  lemma ProductionCssExtracts(options: Options, nodeEnv: Value, configFound: bool, o: Options)
    requires AssetRootIsString(options)
    requires Get(options, "env") == Str("production")
    requires "extract" !in o
    ensures var a := CreateAtoms(options, nodeEnv, configFound);
      && BranchUseAt(CssRule(a.env, o, a.ident).value, 0, 0) == ExtractionLoader
      && BranchUseAt(CssRule(a.env, o, a.ident).value, 1, 0) == ExtractionLoader
  {
    var a := CreateAtoms(options, nodeEnv, configFound);
    CssRuleHeads(a.env, o, a.ident);
  }

  /** A development construction with the default injection flag injects
      styles in both branches of `rules.css` when the call leaves `extract`
      out. */
  lemma DevelopmentCssInjects(options: Options, nodeEnv: Value, configFound: bool, o: Options)
    requires AssetRootIsString(options)
    requires Get(options, "env") == Str("development")
    requires "disableMiniExtractInDev" !in options
    requires "extract" !in o
    ensures var a := CreateAtoms(options, nodeEnv, configFound);
      && BranchUseAt(CssRule(a.env, o, a.ident).value, 0, 0) == Loader(StyleSpec)
      && BranchUseAt(CssRule(a.env, o, a.ident).value, 1, 0) == Loader(StyleSpec)
  {
    var a := CreateAtoms(options, nodeEnv, configFound);
    DevelopmentDefaults(options, nodeEnv, configFound);
    InjectsWhenUnset(a.env, Get(o, "extract"), Loader(StyleSpec));
    CssRuleHeads(a.env, o, a.ident);
  }

  /** A production construction that leaves `extract` out extracts in both
      alternatives of every style rule whose call leaves it out too. */
  lemma {:induction false} ProductionStyleRulesExtract(options: Options, nodeEnv: Value, configFound: bool,
                                                      kind: StyleKind, o: Options)
    requires AssetRootIsString(options)
    requires Get(options, "env") == Str("production")
    requires "extract" !in options && "extract" !in o
    ensures var a := CreateAtoms(options, nodeEnv, configFound);
      && BranchUseAt(StyleRule(a.env, kind, o, a.ident).value, 0, 0) == ExtractionLoader
      && BranchUseAt(StyleRule(a.env, kind, o, a.ident).value, 1, 0) == ExtractionLoader
  {
    var a := CreateAtoms(options, nodeEnv, configFound);
    StyleRuleHeadsWhenUnset(a.env, kind, o, a.ident);
  }

  /** A development construction with the default injection flag that
      leaves `extract` out injects, with the rule's own fallback, in both
      alternatives of every style rule whose call leaves it out too. */
  lemma {:induction false} DevelopmentStyleRulesInject(options: Options, nodeEnv: Value, configFound: bool,
                                                      kind: StyleKind, o: Options)
    requires AssetRootIsString(options)
    requires Get(options, "env") == Str("development")
    requires "disableMiniExtractInDev" !in options
    requires "extract" !in options && "extract" !in o
    ensures var a := CreateAtoms(options, nodeEnv, configFound);
      && BranchUseAt(StyleRule(a.env, kind, o, a.ident).value, 0, 0) == FallbackOf(kind)
      && BranchUseAt(StyleRule(a.env, kind, o, a.ident).value, 1, 0) == FallbackOf(kind)
  {
    var a := CreateAtoms(options, nodeEnv, configFound);
    DevelopmentDefaults(options, nodeEnv, configFound);
    assert Truthy(FallbackOf(kind));
    InjectsWhenUnset(a.env, Undefined, FallbackOf(kind));
    StyleRuleHeadsWhenUnset(a.env, kind, o, a.ident);
  }

  /** A construction for development that leaves the injection flag out is
      not a production build and injects styles in development. */
  lemma DevelopmentDefaults(options: Options, nodeEnv: Value, configFound: bool)
    requires AssetRootIsString(options)
    requires Get(options, "env") == Str("development")
    requires "disableMiniExtractInDev" !in options
    ensures !CreateAtoms(options, nodeEnv, configFound).env.production
    ensures Truthy(CreateAtoms(options, nodeEnv, configFound).env.disableMiniExtractInDev)
  {
  }

  /** With `extract` undefined, a development build with injection on puts
      the truthy fallback at the head. */
  lemma InjectsWhenUnset(env: Env, extract: Value, fallback: Value)
    requires extract == Undefined && Truthy(fallback)
    requires !env.production && Truthy(env.disableMiniExtractInDev)
    ensures Head(env, extract, fallback) == fallback
  {
  }

  /** Every construction, whatever its options, names the postcss loaders of
      its first `rules.css` call `postcss-1` and `postcss-2`: a counter sees
      only its own construction's calls. */
  lemma FirstCssRuleIdents(options: Options, nodeEnv: Value, configFound: bool, o: Options)
    requires AssetRootIsString(options)
    ensures var a := CreateAtoms(options, nodeEnv, configFound);
      && OptionOf(BranchUseAt(CssRule(a.env, o, a.ident).value, 0, 2), "ident") == Str("postcss-1")
      && OptionOf(BranchUseAt(CssRule(a.env, o, a.ident).value, 1, 2), "ident") == Str("postcss-2")
  {
    var a := CreateAtoms(options, nodeEnv, configFound);
    CssRuleIdents(a.env, o, 0);
    FirstIdents();
  }

  /** The first two identifiers a counter hands out. */
  lemma FirstIdents()
    ensures PostcssIdent(1) == "postcss-1" && PostcssIdent(2) == "postcss-2"
  {
    assert NatToString(1) == "1" && NatToString(2) == "2";
  }
}

=== FILE: decimal.dfy ===
/**
  Decimal rendering of the `ident` counter, as a template literal renders a
  non-negative integer, with its inverse. The inverse exists so that the
  model can show that distinct counter values give distinct identifiers.
 */
module Decimal {

  predicate IsDigit(c: char)
  {
    '0' <= c <= '9'
  }

  predicate AllDigits(s: string)
  {
    forall i :: 0 <= i < |s| ==> IsDigit(s[i])
  }

  function DigitChar(d: nat): (c: char)
    requires d < 10
    ensures IsDigit(c)
  {
    (48 + d) as char
  }

  function DigitValue(c: char): (d: nat)
    requires IsDigit(c)
    ensures d < 10
  {
    c as int - 48
  }

  /** The shortest decimal numeral of `n`, most significant digit first. */
  function NatToString(n: nat): (s: string)
    ensures |s| >= 1
    ensures AllDigits(s)
    ensures |s| > 1 ==> s[0] != '0'
    decreases n
  {
    if n < 10 then [DigitChar(n)] else NatToString(n / 10) + [DigitChar(n % 10)]
  }

  /** The value of a numeral. */
  function ParseDecimal(s: string): nat
    requires AllDigits(s)
  {
    if |s| == 0 then 0 else 10 * ParseDecimal(s[..|s| - 1]) + DigitValue(s[|s| - 1])
  }

  lemma {:induction false} ParseInvertsNatToString(n: nat)
    ensures ParseDecimal(NatToString(n)) == n
    decreases n
  {
    if n >= 10 {
      var s := NatToString(n / 10);
      var t := s + [DigitChar(n % 10)];
      assert t[..|t| - 1] == s;
      ParseInvertsNatToString(n / 10);
    }
  }

  /** Distinct counter values render as distinct numerals. */
  lemma NatToStringInjective(a: nat, b: nat)
    ensures NatToString(a) == NatToString(b) <==> a == b
  {
    ParseInvertsNatToString(a);
    ParseInvertsNatToString(b);
  }

  /** A fixed prefix followed by distinct numerals gives distinct strings. */
  lemma PrefixedNumeralsDistinct(prefix: string, a: nat, b: nat)
    ensures prefix + NatToString(a) == prefix + NatToString(b) <==> a == b
  {
    if prefix + NatToString(a) == prefix + NatToString(b) {
      assert (prefix + NatToString(a))[|prefix|..] == NatToString(a);
      assert (prefix + NatToString(b))[|prefix|..] == NatToString(b);
    }
    NatToStringInjective(a, b);
  }
}

=== FILE: environment.dfy ===
/**
  The environment a construction of the atom set closes over: the
  construction options with their defaults applied, the production flag and
  the resolved browser list. The ambient environment variable `NODE_ENV`
  and the result of probing the file system for a browserslist config are
  inputs.
 */
module Environment {
  import opened Values

  const VendorModuleRegex := Pattern("/node_modules/")
  const DefaultBrowsers := Arr([Str("> 1%"), Str("Firefox ESR"), Str("not ie < 9")])

  datatype Env = Env(
    /** the construction argument as given (the empty map when omitted) */
    options: Options,
    babelConfig: Value,
    assetRelativeRoot: string,
    /** the resolved build environment name */
    env: Value,
    vendorRegex: Value,
    disableMiniExtractInDev: Value,
    supportedBrowsers: Value,
    production: bool)

  /** The construction options type declares `assetRelativeRoot` a string. */
  predicate AssetRootIsString(options: Options)
  {
    Get(options, "assetRelativeRoot").Undefined? || Get(options, "assetRelativeRoot").Str?
  }

  /** Browser targets: when the config file is ignored or not found, the
      explicit list if it is truthy, else the default list; otherwise the
      explicit value untouched, which may be undefined so that the config
      file decides. */
  function ResolveBrowsers(browsers: Value, ignoreConfig: Value, configFound: bool): (r: Value)
    ensures Truthy(browsers) ==> r == browsers
    ensures (Truthy(ignoreConfig) || !configFound) && !Truthy(browsers) ==> r == DefaultBrowsers
    ensures !Truthy(ignoreConfig) && configFound ==> r == browsers
    ensures (Truthy(ignoreConfig) || !configFound) ==> Truthy(r)
  {
    if Truthy(ignoreConfig) || !configFound then
      (if Truthy(browsers) then browsers else DefaultBrowsers)
    else
      browsers
  }

  /** The destructuring at the top of a construction, then browser resolution
      and the production flag. `nodeEnv` is the ambient `NODE_ENV`. */
  function CreateEnv(options: Options, nodeEnv: Value, configFound: bool): (e: Env)
    requires AssetRootIsString(options)
    ensures e.options == options
    ensures e.env == (if Get(options, "env") == Undefined then nodeEnv else options["env"])
    ensures e.production <==> e.env == Str("production")
    ensures Get(options, "vendorRegex") == Undefined ==> e.vendorRegex == VendorModuleRegex
    ensures Get(options, "vendorRegex") != Undefined ==> e.vendorRegex == options["vendorRegex"]
    ensures e.vendorRegex != Undefined
    ensures Get(options, "assetRelativeRoot") == Undefined ==> e.assetRelativeRoot == ""
    ensures Get(options, "assetRelativeRoot").Str? ==> e.assetRelativeRoot == options["assetRelativeRoot"].s
    ensures Get(options, "disableMiniExtractInDev") == Undefined ==> e.disableMiniExtractInDev == Bool(true)
    ensures Get(options, "disableMiniExtractInDev") != Undefined ==> e.disableMiniExtractInDev == options["disableMiniExtractInDev"]
    ensures Get(options, "babelConfig") == Undefined ==> e.babelConfig == Obj(map[])
    ensures Get(options, "babelConfig") != Undefined ==> e.babelConfig == options["babelConfig"]
    ensures e.supportedBrowsers ==
      ResolveBrowsers(Get(options, "browsers"), Default(Get(options, "ignoreBrowserslistConfig"), Bool(false)), configFound)
  {
    var env := Default(Get(options, "env"), nodeEnv);
    var root := Get(options, "assetRelativeRoot");
    Env(
      options,
      Default(Get(options, "babelConfig"), Obj(map[])),
      if root.Str? then root.s else "",
      env,
      Default(Get(options, "vendorRegex"), VendorModuleRegex),
      Default(Get(options, "disableMiniExtractInDev"), Bool(true)),
      ResolveBrowsers(Get(options, "browsers"), Default(Get(options, "ignoreBrowserslistConfig"), Bool(false)), configFound),
      env == Str("production"))
  }
}

=== FILE: extraction.dfy ===
/**
  The extraction composer every style rule uses: it puts either the
  extraction loader or an injection loader in front of a transform chain,
  deciding from the call's `extract` option, the production flag and the
  development-injection flag.
 */
module Extraction {
  import opened Values
  import opened Environment
  import opened Loaders

  /** The `{ fallback, use }` argument: the injection loader to use when not
      extracting, and the transform chain that follows the head. */
  datatype ExtractConfig = ExtractConfig(fallback: Value, use: seq<Value>)

  /** The extraction loader as the composer builds it: it forwards only
      `fallback` and `disable`, so nothing is left for its options. */
  const ExtractionLoader := Loader(LoaderSpec(MiniCssExtractLoader, Obj(map[])))

  /** Whether a given `extract` option leads to extraction. A truthy value
      extracts and any other defined, non-null value injects. `undefined`
      defers to the environment: extract in production, and in development
      unless injection in development is on. `null` is passed through as
      `disable: null`, which is defined and falsy, so it extracts. */
  predicate Extracts(env: Env, extract: Value)
  {
    if extract == Undefined then env.production || !Truthy(env.disableMiniExtractInDev)
    else if extract == Null then true
    else Truthy(extract)
  }

  /** The head loader for a decision: extraction, else a truthy fallback,
      else the style loader. */
  function Head(env: Env, extract: Value, fallback: Value): Value
  {
    if Extracts(env, extract) then ExtractionLoader
    else if Truthy(fallback) then fallback
    else Loader(StyleSpec)
  }

  /** `makeExtractLoaders`: one head loader, then the given chain in order. */
  function MakeExtractLoaders(env: Env, options: Options, config: ExtractConfig): (chain: seq<Value>)
    ensures |chain| == 1 + |config.use|
    ensures chain[1..] == config.use
    ensures chain[0] == Head(env, Get(options, "extract"), config.fallback)
    ensures Get(options, "extract") == Bool(true) ==> chain[0] == ExtractionLoader
    ensures Get(options, "extract") == Bool(false) && Truthy(config.fallback) ==> chain[0] == config.fallback
  {
    var extract := Get(options, "extract");
    var disable := if Nullish(extract) then extract else Bool(!Truthy(extract));
    [MiniCssExtract(env, map["fallback" := config.fallback, "disable" := disable])] + config.use
  }

  /** With `extract` left out, production builds extract and development
      builds inject exactly when injection in development is on. */
  lemma EnvironmentDecidesWhenUnset(env: Env, options: Options, config: ExtractConfig)
    requires "extract" !in options
    requires Truthy(config.fallback)
    ensures env.production ==> MakeExtractLoaders(env, options, config)[0] == ExtractionLoader
    ensures !env.production && Truthy(env.disableMiniExtractInDev) ==>
      MakeExtractLoaders(env, options, config)[0] == config.fallback
    ensures !env.production && !Truthy(env.disableMiniExtractInDev) ==>
      MakeExtractLoaders(env, options, config)[0] == ExtractionLoader
  {
  }
}

=== FILE: findings.dfy ===
/**
  The module branches of `rules.postcss`, `rules.less`, `rules.sass` and
  `rules.fastSass` spread the construction options where `rules.css`
  spreads the call's options. The lemmas here exhibit a call whose two
  branches disagree on extraction because of it, and define the rules with
  the call's options in both branches, for which the branches always agree.

  Separately, `rules.js` defaults its argument to `{}` before calling the
  babel loader, so the babel loader's own default, the construction's babel
  config, never applies; a corrected rule passes `undefined` through.
 */
module Findings {
  import opened Values
  import opened Environment
  import opened Loaders
  import opened Extraction
  import opened Rules
  import opened StyleRules
  import opened ScriptRules

  /** A production construction with no other options. */
  function ProductionEnv(): (env: Env)
    ensures env.production
    ensures env.options == map["env" := Str("production")]
  {
    CreateEnv(map["env" := Str("production")], Undefined, false)
  }

  /** The call asks not to extract. */
  const NoExtract: Options := map["extract" := Bool(false)]

  /** How the head reads `extract` on a production build: undefined
      extracts, `false` falls back. */
  lemma ProductionHeads(env: Env, fallback: Value)
    requires env.production && Truthy(fallback)
    ensures Head(env, Undefined, fallback) == ExtractionLoader
    ensures Head(env, Bool(false), fallback) == fallback
  {
  }

  /** As written, `rules.postcss({ extract: false })` on a production
      construction that leaves `extract` out still extracts in its module
      branch while the general branch injects. */
  lemma PostcssModuleBranchIgnoresCall(env: Env, ident: nat)
    requires env.production && "extract" !in env.options
    ensures BranchUseAt(PostcssRule(env, NoExtract, ident).value, 0, 0) == ExtractionLoader
    ensures BranchUseAt(PostcssRule(env, NoExtract, ident).value, 1, 0) == StyleLoaderFactory
  {
    assert Get(NoExtract, "extract") == Bool(false);
    PostcssRuleHeads(env, NoExtract, ident);
    ProductionHeads(env, StyleLoaderFactory);
  }

  /** As written, `rules.less({ extract: false })` on such a construction
      extracts in its module branch and injects in the general one. */
  lemma LessModuleBranchIgnoresCall(env: Env, ident: nat)
    requires env.production && "extract" !in env.options
    ensures BranchUseAt(PreprocessorRule(env, Less, NoExtract, ident).value, 0, 0) == ExtractionLoader
    ensures BranchUseAt(PreprocessorRule(env, Less, NoExtract, ident).value, 1, 0) == Loader(StyleSpec)
  {
    assert Get(NoExtract, "extract") == Bool(false);
    PreprocessorRuleHeads(env, Less, NoExtract, ident);
    ProductionHeads(env, Loader(StyleSpec));
  }

  /** As written, the module branch of `rules.less` hands less-loader the
      construction's `env` option, which the call never passed. */
  lemma LessModuleBranchLeaksConstruction(env: Env, ident: nat)
    requires "env" in env.options
    ensures OptionOf(BranchUseAt(PreprocessorRule(env, Less, NoExtract, ident).value, 0, 3), "env") == env.options["env"]
  {
    var leaked := env.options - {"modules", "browsers"};
    assert "env" in leaked && leaked["env"] == env.options["env"];
    PreprocessorRuleLoaders(env, Less, NoExtract, ident);
    PassedOption(LessLoader, leaked, "env");
  }

  /** The defect on the concrete call of the Findings table:
      `createAtoms({ env: 'production' })` followed by
      `rules.postcss({ extract: false })` or `rules.less({ extract: false })`.
      Both module alternatives extract while the general ones do not, and
      less-loader receives `env: 'production'`. */
  lemma ProductionCallExposesDefect(ident: nat)
    ensures BranchUseAt(PostcssRule(ProductionEnv(), NoExtract, ident).value, 0, 0) == ExtractionLoader
    ensures BranchUseAt(PostcssRule(ProductionEnv(), NoExtract, ident).value, 1, 0) == StyleLoaderFactory
    ensures BranchUseAt(PreprocessorRule(ProductionEnv(), Less, NoExtract, ident).value, 0, 0) == ExtractionLoader
    ensures BranchUseAt(PreprocessorRule(ProductionEnv(), Less, NoExtract, ident).value, 1, 0) == Loader(StyleSpec)
    ensures OptionOf(BranchUseAt(PreprocessorRule(ProductionEnv(), Less, NoExtract, ident).value, 0, 3), "env") == Str("production")
  {
    var env := ProductionEnv();
    assert "extract" !in env.options && env.options["env"] == Str("production");
    PostcssModuleBranchIgnoresCall(env, ident);
    LessModuleBranchIgnoresCall(env, ident);
    LessModuleBranchLeaksConstruction(env, ident);
  }

  lemma PassedOption(name: LoaderName, m: Options, k: string)
    requires k in m
    ensures OptionOf(Loader(LoaderSpec(name, Obj(m))), k) == m[k]
  {
  }

  /** `rules.postcss` with the call's options in the module branch. */
  function PostcssRuleIntended(env: Env, o: Options, ident: nat): (r: Counted<Rule>)
    ensures r.ident == ident + 2
    ensures IsOneOfPair(r.value, ModuleCssTest, CssTest)
  {
    PostcssPair(env, o, o, ident)
  }

  lemma PostcssIntendedBranches(env: Env, o: Options, ident: nat, i: nat)
    ensures BranchUseAt(PostcssRuleIntended(env, o, ident).value, 0, i) == UseAt(PostcssBranch(env, o + map["modules" := Bool(true)], ident).value, i)
    ensures BranchUseAt(PostcssRuleIntended(env, o, ident).value, 1, i) == UseAt(PostcssBranch(env, o, ident + 1).value, i)
  {
    PostcssPairBranches(env, o, o, ident, i);
  }

  /** Both branches of the corrected `rules.postcss` decide extraction from
      the call's `extract`, so they always agree. */
  lemma {:induction false} PostcssIntendedHeadsAgree(env: Env, o: Options, ident: nat)
    ensures BranchUseAt(PostcssRuleIntended(env, o, ident).value, 0, 0) == Head(env, Get(o, "extract"), StyleLoaderFactory)
    ensures BranchUseAt(PostcssRuleIntended(env, o, ident).value, 1, 0) == Head(env, Get(o, "extract"), StyleLoaderFactory)
  {
    var withModules := o + map["modules" := Bool(true)];
    assert Get(withModules, "extract") == Get(o, "extract");
    PostcssIntendedBranches(env, o, ident, 0);
    PostcssBranchAt0(env, withModules, ident);
    PostcssBranchAt0(env, o, ident + 1);
  }

  /** Both branches of the corrected `rules.postcss` hand postcss the call's
      options without `modules`. */
  lemma {:induction false} PostcssIntendedLoaders(env: Env, o: Options, ident: nat)
    ensures BranchUseAt(PostcssRuleIntended(env, o, ident).value, 0, 2) == Loader(Postcss(env, o - {"modules"}, ident).value)
    ensures BranchUseAt(PostcssRuleIntended(env, o, ident).value, 1, 2) == Loader(Postcss(env, o - {"modules"}, ident + 1).value)
  {
    var withModules := o + map["modules" := Bool(true)];
    assert withModules - {"modules"} == o - {"modules"};
    PostcssIntendedBranches(env, o, ident, 2);
    PostcssBranchAt2(env, withModules, ident);
    PostcssBranchAt2(env, o, ident + 1);
  }

  /** `rules.less`, `rules.sass` and `rules.fastSass` with the call's
      options in the module branch. */
  function PreprocessorRuleIntended(env: Env, p: Preprocessor, o: Options, ident: nat): (r: Counted<Rule>)
    ensures r.ident == ident + 2
    ensures IsOneOfPair(r.value, PreprocessorModuleTest(p), PreprocessorTest(p))
  {
    PreprocessorPair(env, p, o, o, ident)
  }

  lemma PreprocessorIntendedBranches(env: Env, p: Preprocessor, o: Options, ident: nat, i: nat)
    ensures BranchUseAt(PreprocessorRuleIntended(env, p, o, ident).value, 0, i) == UseAt(PreprocessorBranch(env, p, o + map["modules" := Bool(true)], ident).value, i)
    ensures BranchUseAt(PreprocessorRuleIntended(env, p, o, ident).value, 1, i) == UseAt(PreprocessorBranch(env, p, o, ident + 1).value, i)
  {
    PreprocessorPairBranches(env, p, o, o, ident, i);
  }

  /** Both branches of a corrected preprocessor rule decide extraction from
      the call's `extract`. */
  lemma {:induction false} PreprocessorIntendedHeadsAgree(env: Env, p: Preprocessor, o: Options, ident: nat)
    ensures BranchUseAt(PreprocessorRuleIntended(env, p, o, ident).value, 0, 0) == Head(env, Get(o, "extract"), Loader(StyleSpec))
    ensures BranchUseAt(PreprocessorRuleIntended(env, p, o, ident).value, 1, 0) == Head(env, Get(o, "extract"), Loader(StyleSpec))
  {
    var withModules := o + map["modules" := Bool(true)];
    assert Get(withModules, "extract") == Get(o, "extract");
    PreprocessorIntendedBranches(env, p, o, ident, 0);
    PreprocessorBranchAt0(env, p, withModules, ident);
    PreprocessorBranchAt0(env, p, o, ident + 1);
  }

  /** Both branches of a corrected preprocessor rule hand the preprocessor
      the call's options without `modules` and `browsers`. */
  lemma {:induction false} PreprocessorIntendedLoaders(env: Env, p: Preprocessor, o: Options, ident: nat)
    ensures BranchUseAt(PreprocessorRuleIntended(env, p, o, ident).value, 0, 3)
         == Loader(LoaderSpec(PreprocessorLoader(p), Obj(o - {"modules", "browsers"})))
    ensures BranchUseAt(PreprocessorRuleIntended(env, p, o, ident).value, 1, 3)
         == Loader(LoaderSpec(PreprocessorLoader(p), Obj(o - {"modules", "browsers"})))
  {
    var withModules := o + map["modules" := Bool(true)];
    assert withModules - {"modules", "browsers"} == o - {"modules", "browsers"};
    PreprocessorIntendedBranches(env, p, o, ident, 3);
    PreprocessorBranchAt3(env, p, withModules, ident);
    PreprocessorBranchAt3(env, p, o, ident + 1);
  }

  /** On the call that exposes the as-written rules, the corrected ones
      inject in both branches. */
  lemma IntendedRulesHonourCall(env: Env, ident: nat)
    requires env.production
    ensures BranchUseAt(PostcssRuleIntended(env, NoExtract, ident).value, 0, 0) == StyleLoaderFactory
    ensures BranchUseAt(PostcssRuleIntended(env, NoExtract, ident).value, 1, 0) == StyleLoaderFactory
    ensures BranchUseAt(PreprocessorRuleIntended(env, Less, NoExtract, ident).value, 0, 0) == Loader(StyleSpec)
    ensures BranchUseAt(PreprocessorRuleIntended(env, Less, NoExtract, ident).value, 1, 0) == Loader(StyleSpec)
  {
    assert Get(NoExtract, "extract") == Bool(false);
    PostcssIntendedHeadsAgree(env, NoExtract, ident);
    PreprocessorIntendedHeadsAgree(env, Less, NoExtract, ident);
    ProductionHeads(env, StyleLoaderFactory);
    ProductionHeads(env, Loader(StyleSpec));
  }

  /** The five style rules with the correction applied: `rules.css` as it
      is, the others with the call's options in both alternatives. */
  function IntendedStyleRule(env: Env, kind: StyleKind, o: Options, ident: nat): (r: Counted<Rule>)
    ensures r.ident == ident + 2
    ensures IsOneOfPair(r.value, ModuleTestOf(kind), GeneralTestOf(kind))
  {
    match kind
    case PlainCss => CssRule(env, o, ident)
    case PostCss => PostcssRuleIntended(env, o, ident)
    case Preprocessed(p) => PreprocessorRuleIntended(env, p, o, ident)
  }

  /** In every corrected style rule both alternatives decide extraction from
      the call's `extract`, with the rule's own fallback. */
  lemma {:induction false} IntendedStyleRulesAgree(env: Env, kind: StyleKind, o: Options, ident: nat)
    ensures BranchUseAt(IntendedStyleRule(env, kind, o, ident).value, 0, 0) == Head(env, Get(o, "extract"), FallbackOf(kind))
    ensures BranchUseAt(IntendedStyleRule(env, kind, o, ident).value, 1, 0) == Head(env, Get(o, "extract"), FallbackOf(kind))
  {
    match kind
    case PlainCss => CssRuleHeads(env, o, ident);
    case PostCss => PostcssIntendedHeadsAgree(env, o, ident);
    case Preprocessed(p) => PreprocessorIntendedHeadsAgree(env, p, o, ident);
  }

  /** As written, `rules.js()` hands babel an empty options object, not the
      construction's babel config: the rule's own default `{}` means the
      loader's default never applies. */
  lemma JsRuleIgnoresBabelConfig(env: Env)
    requires env.babelConfig != Obj(map[])
    ensures UseAt(JsRule(env, map[]), 0) == Loader(LoaderSpec(BabelLoader, Obj(map[])))
    ensures UseAt(JsRule(env, map[]), 0) != Loader(Js(env, Undefined))
  {
  }

  /** `rules.js` passing its argument through, `Undefined` when the call
      gives none, so that the babel loader's own default applies. */
  function JsRuleIntended(env: Env, options: Value): (r: Rule)
    ensures r.test == JsTest && r.excludes == env.vendorRegex && r.includes == Undefined
    ensures r.oneOf == None
    ensures options == Undefined ==> r.use == Some([Loader(LoaderSpec(BabelLoader, env.babelConfig))])
    ensures options != Undefined ==> r.use == Some([Loader(LoaderSpec(BabelLoader, options))])
  {
    Rule(JsTest, Undefined, env.vendorRegex, Some([Loader(Js(env, options))]), None)
  }

  /** The correction changes nothing for a call that gives options. */
  lemma JsRuleIntendedAgreesWhenGiven(env: Env, o: Options)
    ensures JsRuleIntended(env, Obj(o)) == JsRule(env, o)
  {
  }
}

=== FILE: loaders.dfy ===
/**
  The loader atoms: each maps an options map to one loader descriptor.
  Factories with built-in defaults shallow-merge the caller's options over
  them, so the caller wins on every key. `loaders.postcss` also advances the
  construction's `ident` counter, which is threaded here explicitly.
 */
module Loaders {
  import opened Values
  import opened Decimal
  import opened Environment

  /** The loaders that take no options. `loaders.null` and `loaders.raw`
      are offered to callers; no rule of the library uses them. */
  const JsonSpec := LoaderSpec(JsonLoader, Undefined)
  const YamlSpec := LoaderSpec(YamlLoader, Undefined)
  const NullSpec := LoaderSpec(NullLoader, Undefined)
  const RawSpec := LoaderSpec(RawLoader, Undefined)
  const StyleSpec := LoaderSpec(StyleLoader, Undefined)

  const AssetNameTemplate := "[name]-[hash].[ext]"
  const LocalIdentName := "[name]--[local]--[hash:base64:5]"
  const UrlInlineLimit := 10000

  /** The loaders that carry the caller's options as they are: `cssLiteral`,
      `less`, `sass`, `fastSass`, `imports` and `exports`. */
  function PassThrough(name: LoaderName, options: Options): (spec: LoaderSpec)
    ensures spec.loader == name
    ensures OptionsOf(Loader(spec)) == options && spec.options.Obj?
  {
    LoaderSpec(name, Obj(options))
  }

  /** Whether `miniCssExtract` falls back to injection for a given `disable`:
      an undefined `disable` means "not production and injection in
      development is on"; anything else is read by its truthiness. */
  predicate Disabled(env: Env, disable: Value)
  {
    if disable == Undefined then !env.production && Truthy(env.disableMiniExtractInDev)
    else Truthy(disable)
  }

  /** `loaders.miniCssExtract`: when disabled, the `fallback` if it is truthy
      and the style loader otherwise; when enabled, the extraction loader
      carrying every option except `disable` and `fallback`. */
  function MiniCssExtract(env: Env, options: Options): (r: Value)
    ensures Disabled(env, Get(options, "disable")) && Truthy(Get(options, "fallback")) ==>
      r == options["fallback"]
    ensures Disabled(env, Get(options, "disable")) && !Truthy(Get(options, "fallback")) ==>
      r == Loader(StyleSpec)
    ensures !Disabled(env, Get(options, "disable")) ==>
      && IsLoader(r, MiniCssExtractLoader)
      && OptionsOf(r).Keys == options.Keys - {"disable", "fallback"}
      && Carries(OptionsOf(r), options, {"disable", "fallback"})
  {
    // `!PRODUCTION && disableMiniExtractInDev` as JavaScript evaluates it
    var envDefault := if env.production then Bool(false) else env.disableMiniExtractInDev;
    var disable := Default(Get(options, "disable"), envDefault);
    var fallback := Get(options, "fallback");
    if Truthy(disable) then
      (if Truthy(fallback) then fallback else Loader(StyleSpec))
    else
      Loader(LoaderSpec(MiniCssExtractLoader, Obj(options - {"disable", "fallback"})))
  }

  function CssDefaults(env: Env): Options
  {
    map[
      "sourceMap" := Bool(!env.production),
      "camelCase" := Str("dashes"),
      "localIdentName" := Str(LocalIdentName)
    ]
  }

  /** `loaders.css`: source maps outside production, dashed camel-casing and
      the local identifier template, each overridable by the caller. */
  function Css(env: Env, options: Options): (spec: LoaderSpec)
    ensures spec.loader == CssLoader && spec.options.Obj?
    ensures CallerWins(spec.options.fields, CssDefaults(env), options)
    ensures "sourceMap" !in options ==> spec.options.fields["sourceMap"] == Bool(!env.production)
    ensures "camelCase" !in options ==> spec.options.fields["camelCase"] == Str("dashes")
    ensures "localIdentName" !in options ==> spec.options.fields["localIdentName"] == Str(LocalIdentName)
  {
    LoaderSpec(CssLoader, Obj(CssDefaults(env) + options))
  }

  /** `loaders.astroturf`: the `.module.css` extension unless the caller names another. */
  function Astroturf(options: Options): (spec: LoaderSpec)
    ensures spec.loader == AstroturfLoader && spec.options.Obj?
    ensures CallerWins(spec.options.fields, map["extension" := Str(".module.css")], options)
  {
    LoaderSpec(AstroturfLoader, Obj(map["extension" := Str(".module.css")] + options))
  }

  /** The identifier the `n`-th postcss loader of a construction carries. */
  function PostcssIdent(n: nat): string
  {
    "postcss-" + NatToString(n)
  }

  /** `loaders.postcss`: advances the counter by one and names the loader
      after the new value unless the caller supplies `ident`. `plugins` and
      `browsers` are taken out of the options and closed over by the plugins
      callback; `browsers` defaults to the resolved browser list. Every other
      caller key is carried. */
  function Postcss(env: Env, options: Options, ident: nat): (r: Counted<LoaderSpec>)
    ensures r.ident == ident + 1
    ensures r.value.loader == PostcssLoader && r.value.options.Obj?
    ensures r.value.options.fields.Keys == {"ident", "plugins"} + (options.Keys - {"plugins", "browsers"})
    ensures "ident" !in options ==> r.value.options.fields["ident"] == Str(PostcssIdent(ident + 1))
    ensures r.value.options.fields["plugins"] ==
      PostcssPlugins(Default(Get(options, "browsers"), env.supportedBrowsers), Get(options, "plugins"))
    ensures Carries(r.value.options.fields, options, {"plugins", "browsers"})
  {
    var next := ident + 1;
    var browsers := Default(Get(options, "browsers"), env.supportedBrowsers);
    var rest := options - {"plugins", "browsers"};
    var opts := map["ident" := Str(PostcssIdent(next)), "plugins" := PostcssPlugins(browsers, Get(options, "plugins"))] + rest;
    Counted(LoaderSpec(PostcssLoader, Obj(opts)), next)
  }

  function AssetName(env: Env): string
  {
    env.assetRelativeRoot + AssetNameTemplate
  }

  /** `loaders.file`: asset names under the asset root unless the caller names them. */
  function File(env: Env, options: Options): (spec: LoaderSpec)
    ensures spec.loader == FileLoader && spec.options.Obj?
    ensures CallerWins(spec.options.fields, map["name" := Str(AssetName(env))], options)
    ensures "name" !in options ==> spec.options.fields["name"] == Str(env.assetRelativeRoot + "[name]-[hash].[ext]")
  {
    LoaderSpec(FileLoader, Obj(map["name" := Str(AssetName(env))] + options))
  }

  /** `loaders.url`: inline below 10000 bytes, asset names as for `file`,
      both overridable. */
  function Url(env: Env, options: Options): (spec: LoaderSpec)
    ensures spec.loader == UrlLoader && spec.options.Obj?
    ensures CallerWins(spec.options.fields, map["limit" := Num(UrlInlineLimit), "name" := Str(AssetName(env))], options)
    ensures "limit" !in options ==> spec.options.fields["limit"] == Num(10000)
    ensures "name" !in options ==> spec.options.fields["name"] == Str(env.assetRelativeRoot + "[name]-[hash].[ext]")
  {
    LoaderSpec(UrlLoader, Obj(map["limit" := Num(UrlInlineLimit), "name" := Str(AssetName(env))] + options))
  }

  /** `loaders.js`: the argument, or the construction's babel config when the
      argument is `undefined`. */
  function Js(env: Env, options: Value): (spec: LoaderSpec)
    ensures spec.loader == BabelLoader
    ensures options != Undefined ==> spec.options == options
    ensures options == Undefined ==> spec.options == env.babelConfig
  {
    LoaderSpec(BabelLoader, Default(options, env.babelConfig))
  }
}

=== FILE: plugins.dfy ===
/**
  The plugin atoms whose constructor options the library computes. A plugin
  instance is its constructor, as `kind`, and the options record passed to it; the
  constructors themselves are not modelled.
 */
module Plugins {
  import opened Values
  import opened Environment
  import opened Loaders

  datatype PluginName = DefinePlugin | LoaderOptionsPlugin | TerserPlugin | MiniCssExtractPlugin | HtmlWebpackPlugin

  datatype Plugin = Plugin(kind: PluginName, options: Options)

  const NodeEnvKey := "process.env.NODE_ENV"

  /** `plugins.define`: the resolved environment name, serialized, under
      `process.env.NODE_ENV`, with the caller's defines layered on top. */
  function Define(env: Env, defines: Options): (p: Plugin)
    ensures p.kind == DefinePlugin
    ensures CallerWins(p.options, map[NodeEnvKey := JsonOf(env.env)], defines)
    ensures NodeEnvKey !in defines ==> p.options[NodeEnvKey] == JsonOf(env.env)
  {
    Plugin(DefinePlugin, map[NodeEnvKey := JsonOf(env.env)] + defines)
  }

  /** `plugins.loaderOptions`: the caller's options nested under `options`;
      `minimize` mirrors production and `debug` its negation, whatever the
      caller passes. */
  function LoaderOptions(env: Env, options: Options): (p: Plugin)
    ensures p.kind == LoaderOptionsPlugin
    ensures p.options.Keys == {"options", "minimize", "debug"}
    ensures p.options["options"] == Obj(options)
    ensures p.options["minimize"] == Bool(env.production)
    ensures p.options["debug"] == Bool(!env.production)
  {
    Plugin(LoaderOptionsPlugin, map["options" := Obj(options), "minimize" := Bool(env.production), "debug" := Bool(!env.production)])
  }

  /** The loader-options shim's `debug` flag and css-loader's default source
      maps are the same switch: both are on exactly outside production. */
  lemma LoaderOptionsDebugMatchesSourceMaps(env: Env, options: Options, css: Options)
    requires "sourceMap" !in css
    ensures LoaderOptions(env, options).options["debug"] == Css(env, css).options.fields["sourceMap"]
  {
  }

  const TerserDefaults := map[
    "cache" := Bool(true),
    "parallel" := Bool(true),
    "exclude" := Pattern(@"/\.min\.js/"),
    "sourceMap" := Bool(true)]

  const TerserOptionDefaults := map["ecma" := Num(8), "ie8" := Bool(false)]

  /** `plugins.minifyJs`: caching, parallelism, `.min.js` skipped and source
      maps on, each overridable; the caller's `terserOptions` are merged over
      `ecma: 8, ie8: false` rather than replacing them. */
  function MinifyJs(options: Options): (p: Plugin)
    ensures p.kind == TerserPlugin
    ensures Carries(p.options, options, {"terserOptions"})
    ensures forall k :: k in TerserDefaults && k !in options ==> Get(p.options, k) == TerserDefaults[k]
  {
    var terser := Obj(TerserOptionDefaults + SpreadOf(Get(options, "terserOptions")));
    Plugin(TerserPlugin, TerserDefaults + map["terserOptions" := terser] + (options - {"terserOptions"}))
  }

  /** The minifier's options hold the built-in keys, `terserOptions` and the
      caller's keys, nothing else. */
  lemma MinifyJsKeys(options: Options)
    ensures MinifyJs(options).options.Keys == TerserDefaults.Keys + {"terserOptions"} + options.Keys
  {
  }

  /** The caller's `terserOptions` never replace the built-in ones: they are
      merged over `ecma: 8, ie8: false`, key by key. */
  lemma MinifyJsMergesTerserOptions(options: Options)
    ensures Get(MinifyJs(options).options, "terserOptions").Obj?
    ensures CallerWins(SpreadOf(Get(MinifyJs(options).options, "terserOptions")), TerserOptionDefaults,
                       SpreadOf(Get(options, "terserOptions")))
  {
    assert "terserOptions" !in options - {"terserOptions"};
  }

  /** `plugins.extractCss`: content-hashed file names unless the caller names them. */
  function ExtractCss(options: Options): (p: Plugin)
    ensures p.kind == MiniCssExtractPlugin
    ensures CallerWins(p.options, map["filename" := Str("[name]-[contenthash].css")], options)
  {
    Plugin(MiniCssExtractPlugin, map["filename" := Str("[name]-[contenthash].css")] + options)
  }

  /** `plugins.html`: script injection on and the library's bundled
      template, both overridable. The template's location is a parameter. */
  function Html(templatePath: Value, options: Options): (p: Plugin)
    ensures p.kind == HtmlWebpackPlugin
    ensures CallerWins(p.options, map["inject" := Bool(true), "template" := templatePath], options)
  {
    Plugin(HtmlWebpackPlugin, map["inject" := Bool(true), "template" := templatePath] + options)
  }
}

=== FILE: rules.dfy ===
/**
  Rule descriptors and the two filter overlays that derive first-party-only
  and dependency-only variants from any rule factory.
 */
module Rules {
  import opened Values
  import opened Environment

  /** A webpack rule; `includes` and `excludes` are its `include` and `exclude`
      properties. A condition property that the factory does not set is
      `Undefined`; `use` and `oneOf` are `None` when absent. */
  datatype Rule = Rule(
    test: Value,
    includes: Value,
    excludes: Value,
    use: Option<seq<Value>>,
    oneOf: Option<seq<Rule>>)

  /** The `oneOf` alternatives of a rule, empty when it has none. */
  function Branches(r: Rule): seq<Rule>
  {
    if r.oneOf.Some? then r.oneOf.value else []
  }

  /** The `use` chain of a rule, empty when it has none. */
  function Chain(r: Rule): seq<Value>
  {
    if r.use.Some? then r.use.value else []
  }

  /** The `i`-th entry of a rule's chain, `Undefined` past its end. */
  function UseAt(r: Rule, i: nat): Value
  {
    var chain := Chain(r);
    if i < |chain| then chain[i] else Undefined
  }

  /** The `i`-th chain entry of a rule's `b`-th alternative, `Undefined`
      when there is none. */
  function BranchUseAt(r: Rule, b: nat, i: nat): Value
  {
    var branches := Branches(r);
    if b < |branches| then UseAt(branches[b], i) else Undefined
  }

  /** A rule factory of one construction: it takes the call's options and
      the `ident` counter and gives the rule with the advanced counter. */
  type RuleFactory = (Options, nat) -> Counted<Rule>

  /** `makeExternalOnly`: the original rule with `include` set to the
      vendor pattern; every other property and the counter as the original
      leaves them. */
  function MakeExternalOnly(env: Env, original: RuleFactory): (derived: RuleFactory)
    ensures forall o, n :: derived(o, n).value.includes == env.vendorRegex
    ensures forall o, n ::
      && derived(o, n).value.excludes == original(o, n).value.excludes
      && derived(o, n).value.test == original(o, n).value.test
      && derived(o, n).value.use == original(o, n).value.use
      && derived(o, n).value.oneOf == original(o, n).value.oneOf
      && derived(o, n).ident == original(o, n).ident
  {
    (o: Options, n: nat) =>
      var r := original(o, n);
      Counted(r.value.(includes := env.vendorRegex), r.ident)
  }

  /** `makeInternalOnly`: the original rule with `exclude` set to the vendor
      pattern; every other property and the counter as the original leaves
      them. */
  function MakeInternalOnly(env: Env, original: RuleFactory): (derived: RuleFactory)
    ensures forall o, n :: derived(o, n).value.excludes == env.vendorRegex
    ensures forall o, n ::
      && derived(o, n).value.includes == original(o, n).value.includes
      && derived(o, n).value.test == original(o, n).value.test
      && derived(o, n).value.use == original(o, n).value.use
      && derived(o, n).value.oneOf == original(o, n).value.oneOf
      && derived(o, n).ident == original(o, n).ident
  {
    (o: Options, n: nat) =>
      var r := original(o, n);
      Counted(r.value.(excludes := env.vendorRegex), r.ident)
  }

  /** Whether webpack's include/exclude filters let `path` into a rule, for a
      given reading of conditions; the reading is a parameter because the
      model does not interpret patterns. */
  predicate Admits(r: Rule, matches: (Value, string) -> bool, path: string)
  {
    && (r.includes == Undefined || matches(r.includes, path))
    && (r.excludes == Undefined || !matches(r.excludes, path))
  }

  /** The two variants of one factory never both admit a path, whatever the
      base rule's own filters are and however conditions are read. */
  lemma InternalExternalDisjoint(env: Env, original: RuleFactory, o: Options, n: nat,
                                 matches: (Value, string) -> bool, path: string)
    requires env.vendorRegex != Undefined
    ensures !(Admits(MakeInternalOnly(env, original)(o, n).value, matches, path)
              && Admits(MakeExternalOnly(env, original)(o, n).value, matches, path))
  {
    var inner := MakeInternalOnly(env, original)(o, n).value;
    var outer := MakeExternalOnly(env, original)(o, n).value;
    assert inner.excludes == env.vendorRegex;
    assert outer.includes == env.vendorRegex;
  }

  /** The overlays set different properties, so applying both gives the same
      rule in either order. */
  lemma OverlaysCommute(env: Env, original: RuleFactory, o: Options, n: nat)
    ensures MakeInternalOnly(env, MakeExternalOnly(env, original))(o, n)
         == MakeExternalOnly(env, MakeInternalOnly(env, original))(o, n)
  {
    var a := MakeInternalOnly(env, MakeExternalOnly(env, original))(o, n);
    var b := MakeExternalOnly(env, MakeInternalOnly(env, original))(o, n);
    assert a.value.includes == b.value.includes;
    assert a.value.excludes == b.value.excludes;
  }
}

=== FILE: script_rules.dfy ===
/**
  The script, data and asset rule atoms, and the `inlineCss` extension of
  the script rule, which appends a loader to the chain instead of
  overlaying a filter.
 */
module ScriptRules {
  import opened Values
  import opened Environment
  import opened Loaders
  import opened Rules

  const JsTest := Pattern(@"/\.jsx?$/")
  const YamlTest := Pattern(@"/\.ya?ml/")
  const FontTest := Pattern(@"/\.(eot|otf|ttf|woff(2)?)(\?.*)?$/")
  const ImageTest := Pattern(@"/\.(ico|svg|jpg|jpeg|png|gif|webp)(\?.*)?$/")
  const AudioVideoTest := Pattern(@"/\.(mp4|webm|wav|mp3|m4a|aac|oga|flac)$/")
  const FilesExclusions := Arr([Pattern(@"/\.jsx?$/"), Pattern(@"/\.html$/"), Pattern(@"/\.json$/")])
  const ScriptTest := Pattern(@"/\.(j|t)sx?$/")

  /** `rules.js`: babel over `.js`/`.jsx` outside the vendor pattern. The
      call's options always reach the babel loader as an object, so the
      construction's babel config is not what it receives. */
  function JsRule(env: Env, options: Options): (r: Rule)
    ensures r.test == JsTest && r.excludes == env.vendorRegex && r.includes == Undefined
    ensures r.oneOf == None
    ensures r.use == Some([Loader(LoaderSpec(BabelLoader, Obj(options)))])
  {
    Rule(JsTest, Undefined, env.vendorRegex, Some([Loader(Js(env, Obj(options)))]), None)
  }

  /** The `cssLiteral` loader appended by `inlineCss`: exactly the call's
      `tagName` and `extension`, present even when undefined. */
  function CssLiteralFor(options: Options): (v: Value)
    ensures IsLoader(v, AstroturfLoader)
    ensures OptionsOf(v) == map["tagName" := Get(options, "tagName"), "extension" := Get(options, "extension")]
  {
    Loader(PassThrough(AstroturfLoader, map["tagName" := Get(options, "tagName"), "extension" := Get(options, "extension")]))
  }

  /** `rules.js.inlineCss`: the script rule for the options without
      `tagName` and `extension`, with one `cssLiteral` loader for those two
      appended after babel. */
  function JsInlineCss(env: Env, options: Options): (r: Rule)
    ensures var base := JsRule(env, options - {"tagName", "extension"});
      && r.test == base.test && r.includes == base.includes
      && r.excludes == base.excludes && r.oneOf == base.oneOf
      && r.use.Some? && r.use.value == base.use.value + [CssLiteralFor(options)]
    ensures r.excludes == env.vendorRegex
    ensures r.use.Some? && |r.use.value| == 2
    ensures r.use.value[0] == Loader(LoaderSpec(BabelLoader, Obj(options - {"tagName", "extension"})))
    ensures IsLoader(r.use.value[1], AstroturfLoader)
    ensures OptionsOf(r.use.value[1]).Keys == {"tagName", "extension"}
  {
    var rule := JsRule(env, options - {"tagName", "extension"});
    rule.(use := Some(rule.use.value + [CssLiteralFor(options)]))
  }

  /** `rules.yaml`: the json loader after the yaml loader. */
  function YamlRule(): (r: Rule)
    ensures r.test == YamlTest && r.use == Some([Loader(JsonSpec), Loader(YamlSpec)])
    ensures r.includes == Undefined && r.excludes == Undefined && r.oneOf == None
  {
    Rule(YamlTest, Undefined, Undefined, Some([Loader(JsonSpec), Loader(YamlSpec)]), None)
  }

  /** The `url` loader with no caller options: the default limit and names. */
  function DefaultUrl(env: Env): (v: Value)
    ensures IsLoader(v, UrlLoader)
    ensures OptionsOf(v) == map["limit" := Num(10000), "name" := Str(env.assetRelativeRoot + "[name]-[hash].[ext]")]
  {
    Loader(Url(env, map[]))
  }

  /** The `file` loader with no caller options: the default names. */
  function DefaultFile(env: Env): (v: Value)
    ensures IsLoader(v, FileLoader)
    ensures OptionsOf(v) == map["name" := Str(env.assetRelativeRoot + "[name]-[hash].[ext]")]
  {
    Loader(File(env, map[]))
  }

  /** `rules.fonts`: fonts through the url loader with its defaults. */
  function FontsRule(env: Env): (r: Rule)
    ensures r.test == FontTest && r.use == Some([DefaultUrl(env)])
    ensures r.includes == Undefined && r.excludes == Undefined && r.oneOf == None
  {
    Rule(FontTest, Undefined, Undefined, Some([Loader(Url(env, map[]))]), None)
  }

  /** `rules.images`: images through the url loader with its defaults. */
  function ImagesRule(env: Env): (r: Rule)
    ensures r.test == ImageTest && r.use == Some([DefaultUrl(env)])
    ensures r.includes == Undefined && r.excludes == Undefined && r.oneOf == None
  {
    Rule(ImageTest, Undefined, Undefined, Some([Loader(Url(env, map[]))]), None)
  }

  /** `rules.audioVideo`: media through the file loader with its defaults. */
  function AudioVideoRule(env: Env): (r: Rule)
    ensures r.test == AudioVideoTest && r.use == Some([DefaultFile(env)])
    ensures r.includes == Undefined && r.excludes == Undefined && r.oneOf == None
  {
    Rule(AudioVideoTest, Undefined, Undefined, Some([Loader(File(env, map[]))]), None)
  }

  /** `rules.files`: the catch-all, with no test, excluding scripts, html and
      json, through the file loader with its defaults. */
  function FilesRule(env: Env): (r: Rule)
    ensures r.test == Undefined && r.excludes == FilesExclusions && r.use == Some([DefaultFile(env)])
    ensures r.includes == Undefined && r.oneOf == None
  {
    Rule(Undefined, Undefined, FilesExclusions, Some([Loader(File(env, map[]))]), None)
  }

  /** The four asset rules, which share one shape. */
  datatype AssetKind = Fonts | Images | AudioVideo | Files

  function AssetRule(env: Env, kind: AssetKind): Rule
  {
    match kind
    case Fonts => FontsRule(env)
    case Images => ImagesRule(env)
    case AudioVideo => AudioVideoRule(env)
    case Files => FilesRule(env)
  }

  /** Every asset rule has exactly one loader, and it names emitted files
      under the construction's asset root. */
  lemma AssetRulesNameUnderRoot(env: Env, kind: AssetKind)
    ensures |Chain(AssetRule(env, kind))| == 1
    ensures OptionOf(UseAt(AssetRule(env, kind), 0), "name") == Str(env.assetRelativeRoot + AssetNameTemplate)
  {
  }

  /** Fonts and images are inlined below the url loader's limit; media and
      the catch-all go through the file loader, which never inlines. */
  lemma AssetRulesInlineLimit(env: Env, kind: AssetKind)
    ensures OptionOf(UseAt(AssetRule(env, kind), 0), "limit")
         == (if kind == Fonts || kind == Images then Num(UrlInlineLimit) else Undefined)
  {
  }

  /** Only the catch-all sets a filter, and it excludes the script rule's
      own test, so scripts are never emitted as files. */
  lemma FilesRuleSparesScripts(env: Env, kind: AssetKind, o: Options)
    ensures AssetRule(env, kind).includes == Undefined
    ensures kind != Files ==> AssetRule(env, kind).excludes == Undefined
    ensures JsRule(env, o).test in AssetRule(env, Files).excludes.items
  {
    assert FilesExclusions.items[0] == JsTest;
  }

  /** `rules.astroturf`: the astroturf loader over scripts. */
  function AstroturfRule(options: Options): (r: Rule)
    ensures r.test == ScriptTest && r.includes == Undefined && r.excludes == Undefined && r.oneOf == None
    ensures r.use.Some? && |r.use.value| == 1 && IsLoader(r.use.value[0], AstroturfLoader)
    ensures CallerWins(OptionsOf(r.use.value[0]), map["extension" := Str(".module.css")], options)
  {
    Rule(ScriptTest, Undefined, Undefined, Some([Loader(Astroturf(options))]), None)
  }

  /** The astroturf rule with the given
      extension as a default the caller may still override. */
  function AstroturfWithExtension(extension: string, options: Options): (r: Rule)
    ensures r.test == ScriptTest && r.use.Some? && |r.use.value| == 1
    ensures IsLoader(r.use.value[0], AstroturfLoader)
    ensures OptionsOf(r.use.value[0]).Keys == options.Keys + {"extension"}
    ensures "extension" !in options ==> OptionsOf(r.use.value[0])["extension"] == Str(extension)
    ensures Carries(OptionsOf(r.use.value[0]), options, {})
  {
    AstroturfRule(map["extension" := Str(extension)] + options)
  }

  /** `rules.astroturf.sass`: `.module.scss` unless the caller names an extension. */
  function AstroturfSass(options: Options): (r: Rule)
    ensures r.use.Some? && |r.use.value| == 1 && IsLoader(r.use.value[0], AstroturfLoader)
    ensures OptionsOf(r.use.value[0]).Keys == options.Keys + {"extension"}
    ensures "extension" !in options ==> OptionsOf(r.use.value[0])["extension"] == Str(".module.scss")
    ensures Carries(OptionsOf(r.use.value[0]), options, {})
  {
    AstroturfWithExtension(".module.scss", options)
  }

  /** `rules.astroturf.less`: `.module.less` unless the caller names an extension. */
  function AstroturfLess(options: Options): (r: Rule)
    ensures r.use.Some? && |r.use.value| == 1 && IsLoader(r.use.value[0], AstroturfLoader)
    ensures OptionsOf(r.use.value[0]).Keys == options.Keys + {"extension"}
    ensures "extension" !in options ==> OptionsOf(r.use.value[0])["extension"] == Str(".module.less")
    ensures Carries(OptionsOf(r.use.value[0]), options, {})
  {
    AstroturfWithExtension(".module.less", options)
  }
}

=== FILE: style_rules.dfy ===
/**
  The style rule atoms: `css`, `postcss`, `less`, `sass` and `fastSass`.
  Each is a two-branch `oneOf`, the module-flavoured branch (CSS Modules
  scoping on) first and the general branch second, and each branch is a
  chain built by the extraction composer. Every branch calls the postcss
  loader once, so a rule advances the `ident` counter by two, the module
  branch taking the first value.

  As the library is written, the module branches of `postcss`, `less`,
  `sass` and `fastSass` are built from the construction options rather
  than from the call's options; the `css` rule uses the call's options in
  both branches. The model keeps that.
 */
module StyleRules {
  import opened Values
  import opened Environment
  import opened Loaders
  import opened Extraction
  import opened Rules

  const CssTest := Pattern(@"/\.css$/")
  const ModuleCssTest := Pattern(@"/\.module\.css$/")
  const LessTest := Pattern(@"/\.less$/")
  const ModuleLessTest := Pattern(@"/\.module\.less$/")
  const SassTest := Pattern(@"/\.s(a|c)ss$/")
  const ModuleSassTest := Pattern(@"/\.module\.s(a|c)ss$/")

  /** The three preprocessor rules, which share one shape. */
  datatype Preprocessor = Less | Sass | FastSass

  function PreprocessorLoader(p: Preprocessor): LoaderName
  {
    match p
    case Less => LessLoader
    case Sass => SassLoader
    case FastSass => FastSassLoader
  }

  function PreprocessorTest(p: Preprocessor): Value
  {
    if p == Less then LessTest else SassTest
  }

  function PreprocessorModuleTest(p: Preprocessor): Value
  {
    if p == Less then ModuleLessTest else ModuleSassTest
  }

  /** A bare branch rule: a test and a chain, no filters, no alternatives. */
  predicate IsBranch(r: Rule, test: Value, length: nat)
  {
    && r.test == test && r.includes == Undefined && r.excludes == Undefined
    && r.oneOf == None && r.use.Some? && |r.use.value| == length
  }

  /** A rule that is only a two-way `oneOf`, module-flavoured test first. */
  predicate IsOneOfPair(r: Rule, moduleTest: Value, generalTest: Value)
  {
    && r.test == Undefined && r.includes == Undefined && r.excludes == Undefined
    && r.use == None && r.oneOf.Some? && |r.oneOf.value| == 2
    && r.oneOf.value[0].test == moduleTest && r.oneOf.value[1].test == generalTest
  }

  /** The inner `css` factory: the head, then css-loader with the call's
      options (`browsers` taken out, `importLoaders` forced to 1), then
      postcss with only the call's `browsers`. The chain's contents are
      stated by the `CssBranch...` lemmas below. */
  function CssBranch(env: Env, o: Options, ident: nat): (r: Counted<Rule>)
    ensures r.ident == ident + 1
    ensures IsBranch(r.value, CssTest, 3)
  {
    var browsers := Get(o, "browsers");
    var options := o - {"browsers"};
    var postcss := Postcss(env, map["browsers" := browsers], ident);
    var css := Css(env, options + map["importLoaders" := Num(1)]);
    var chain := MakeExtractLoaders(env, options, ExtractConfig(Loader(StyleSpec), [Loader(css), Loader(postcss.value)]));
    Counted(Rule(CssTest, Undefined, Undefined, Some(chain), None), postcss.ident)
  }

  // Each chain position is stated by its own lemma and the chain lemmas
  // combine them; one obligation per position keeps every proof small.

  lemma CssBranchAt0(env: Env, o: Options, ident: nat)
    ensures UseAt(CssBranch(env, o, ident).value, 0) == Head(env, Get(o, "extract"), Loader(StyleSpec))
  {
    assert Get(o - {"browsers"}, "extract") == Get(o, "extract");
  }

  lemma CssBranchAt1(env: Env, o: Options, ident: nat)
    ensures UseAt(CssBranch(env, o, ident).value, 1) == Loader(Css(env, (o - {"browsers"}) + map["importLoaders" := Num(1)]))
  {
  }

  lemma CssBranchAt2(env: Env, o: Options, ident: nat)
    ensures UseAt(CssBranch(env, o, ident).value, 2) == Loader(Postcss(env, map["browsers" := Get(o, "browsers")], ident).value)
  {
  }

  /** The chain of a `css` branch: the head decided by the call's `extract`
      with the style loader as fallback, css-loader on the call's options
      without `browsers` and with `importLoaders: 1`, and postcss on the
      call's `browsers` alone. */
  lemma {:induction false} CssBranchChain(env: Env, o: Options, ident: nat)
    ensures UseAt(CssBranch(env, o, ident).value, 0) == Head(env, Get(o, "extract"), Loader(StyleSpec))
    ensures UseAt(CssBranch(env, o, ident).value, 1) == Loader(Css(env, (o - {"browsers"}) + map["importLoaders" := Num(1)]))
    ensures UseAt(CssBranch(env, o, ident).value, 2) == Loader(Postcss(env, map["browsers" := Get(o, "browsers")], ident).value)
  {
    CssBranchAt0(env, o, ident);
    CssBranchAt1(env, o, ident);
    CssBranchAt2(env, o, ident);
  }

  /** postcss on nothing but `browsers`: the counter's next name and the
      plugins closed over those browsers, nothing else. */
  lemma PostcssOnBrowsers(env: Env, browsers: Value, ident: nat)
    ensures var c := Loader(Postcss(env, map["browsers" := browsers], ident).value);
      && IsLoader(c, PostcssLoader)
      && OptionsOf(c).Keys == {"ident", "plugins"}
      && OptionOf(c, "ident") == Str(PostcssIdent(ident + 1))
      && OptionOf(c, "plugins") == PostcssPlugins(Default(browsers, env.supportedBrowsers), Undefined)
  {
    var given := map["browsers" := browsers];
    assert given.Keys - {"plugins", "browsers"} == {};
    assert "ident" !in given && Get(given, "browsers") == browsers && Get(given, "plugins") == Undefined;
  }

  /** `rules.css`: the module branch is the inner factory with
      `modules: true` added to the call's options and the module test; the
      general branch is the inner factory on the call's options. */
  function CssRule(env: Env, o: Options, ident: nat): (r: Counted<Rule>)
    ensures r.ident == ident + 2
    ensures IsOneOfPair(r.value, ModuleCssTest, CssTest)
    ensures |Chain(Branches(r.value)[0])| == 3 && |Chain(Branches(r.value)[1])| == 3
  {
    var first := CssBranch(env, o + map["modules" := Bool(true)], ident);
    var second := CssBranch(env, o, first.ident);
    Counted(Rule(Undefined, Undefined, Undefined, None,
                 Some([first.value.(test := ModuleCssTest), second.value])), second.ident)
  }

  /** The two alternatives of `rules.css`, position by position: the inner
      factory on the call's options with `modules: true`, then the inner
      factory on the call's options with the advanced counter. */
  lemma CssRuleBranches(env: Env, o: Options, ident: nat, i: nat)
    ensures BranchUseAt(CssRule(env, o, ident).value, 0, i) == UseAt(CssBranch(env, o + map["modules" := Bool(true)], ident).value, i)
    ensures BranchUseAt(CssRule(env, o, ident).value, 1, i) == UseAt(CssBranch(env, o, ident + 1).value, i)
  {
  }

  /** Both branches of `rules.css` decide extraction from the call's
      `extract`. */
  lemma {:induction false} CssRuleHeads(env: Env, o: Options, ident: nat)
    ensures BranchUseAt(CssRule(env, o, ident).value, 0, 0) == Head(env, Get(o, "extract"), Loader(StyleSpec))
    ensures BranchUseAt(CssRule(env, o, ident).value, 1, 0) == Head(env, Get(o, "extract"), Loader(StyleSpec))
  {
    var withModules := o + map["modules" := Bool(true)];
    assert Get(withModules, "extract") == Get(o, "extract");
    CssRuleBranches(env, o, ident, 0);
    CssBranchAt0(env, withModules, ident);
    CssBranchAt0(env, o, ident + 1);
  }

  /** The module branch of `rules.css` takes the first identifier, the
      general branch the second. */
  lemma {:induction false} CssRuleIdents(env: Env, o: Options, ident: nat)
    ensures OptionOf(BranchUseAt(CssRule(env, o, ident).value, 0, 2), "ident") == Str(PostcssIdent(ident + 1))
    ensures OptionOf(BranchUseAt(CssRule(env, o, ident).value, 1, 2), "ident") == Str(PostcssIdent(ident + 2))
  {
    var withModules := o + map["modules" := Bool(true)];
    CssRuleBranches(env, o, ident, 2);
    CssBranchAt2(env, withModules, ident);
    CssBranchAt2(env, o, ident + 1);
    PostcssOnBrowsers(env, Get(withModules, "browsers"), ident);
    PostcssOnBrowsers(env, Get(o, "browsers"), ident + 1);
  }

  /** css-loader sees `modules: true` in the module branch of `rules.css`
      and the call's own `modules` in the general branch. */
  lemma {:induction false} CssRuleModules(env: Env, o: Options, ident: nat)
    ensures OptionOf(BranchUseAt(CssRule(env, o, ident).value, 0, 1), "modules") == Bool(true)
    ensures OptionOf(BranchUseAt(CssRule(env, o, ident).value, 1, 1), "modules") == Get(o, "modules")
  {
    CssModuleBranchModules(env, o, ident);
    CssGeneralBranchModules(env, o, ident);
  }

  lemma {:induction false} CssModuleBranchModules(env: Env, o: Options, ident: nat)
    ensures OptionOf(BranchUseAt(CssRule(env, o, ident).value, 0, 1), "modules") == Bool(true)
  {
    var withModules := o + map["modules" := Bool(true)];
    CssRuleBranches(env, o, ident, 1);
    assert Get(withModules, "modules") == Bool(true);
    CssBranchAt1(env, withModules, ident);
    CssPassesModules(env, withModules);
  }

  lemma {:induction false} CssGeneralBranchModules(env: Env, o: Options, ident: nat)
    ensures OptionOf(BranchUseAt(CssRule(env, o, ident).value, 1, 1), "modules") == Get(o, "modules")
  {
    CssRuleBranches(env, o, ident, 1);
    CssBranchAt1(env, o, ident + 1);
    CssPassesModules(env, o);
  }

  /** css-loader as the `css` branch calls it passes the caller's `modules`
      through: the built-in defaults have no such key. */
  lemma CssPassesModules(env: Env, o: Options)
    ensures OptionOf(Loader(Css(env, (o - {"browsers"}) + map["importLoaders" := Num(1)])), "modules") == Get(o, "modules")
  {
    var given := (o - {"browsers"}) + map["importLoaders" := Num(1)];
    assert "modules" !in CssDefaults(env);
    assert Get(given, "modules") == Get(o, "modules");
  }

  /** The inner `postcss` factory: `modules` is taken out and given to
      css-loader alone; everything else goes to the postcss loader. Its
      fallback is the style factory itself, not a descriptor. */
  function PostcssBranch(env: Env, o: Options, ident: nat): (r: Counted<Rule>)
    ensures r.ident == ident + 1
    ensures IsBranch(r.value, CssTest, 3)
  {
    var modules := Get(o, "modules");
    var opts := o - {"modules"};
    var postcss := Postcss(env, opts, ident);
    var css := Css(env, map["importLoaders" := Num(1), "modules" := modules]);
    var chain := MakeExtractLoaders(env, opts, ExtractConfig(StyleLoaderFactory, [Loader(css), Loader(postcss.value)]));
    Counted(Rule(CssTest, Undefined, Undefined, Some(chain), None), postcss.ident)
  }

  lemma PostcssBranchAt0(env: Env, o: Options, ident: nat)
    ensures UseAt(PostcssBranch(env, o, ident).value, 0) == Head(env, Get(o, "extract"), StyleLoaderFactory)
  {
    assert Get(o - {"modules"}, "extract") == Get(o, "extract");
  }

  lemma PostcssBranchAt1(env: Env, o: Options, ident: nat)
    ensures UseAt(PostcssBranch(env, o, ident).value, 1) == Loader(Css(env, map["importLoaders" := Num(1), "modules" := Get(o, "modules")]))
  {
  }

  lemma PostcssBranchAt2(env: Env, o: Options, ident: nat)
    ensures UseAt(PostcssBranch(env, o, ident).value, 2) == Loader(Postcss(env, o - {"modules"}, ident).value)
  {
  }

  /** The chain of a `postcss` branch: the head decided by the call's
      `extract` with the uncalled style factory as fallback, css-loader on
      `importLoaders: 1` and the call's `modules` only, and postcss on every
      call option but `modules`. */
  lemma {:induction false} PostcssBranchChain(env: Env, o: Options, ident: nat)
    ensures UseAt(PostcssBranch(env, o, ident).value, 0) == Head(env, Get(o, "extract"), StyleLoaderFactory)
    ensures UseAt(PostcssBranch(env, o, ident).value, 1) == Loader(Css(env, map["importLoaders" := Num(1), "modules" := Get(o, "modules")]))
    ensures UseAt(PostcssBranch(env, o, ident).value, 2) == Loader(Postcss(env, o - {"modules"}, ident).value)
  {
    PostcssBranchAt0(env, o, ident);
    PostcssBranchAt1(env, o, ident);
    PostcssBranchAt2(env, o, ident);
  }

  /** When a `postcss` branch does not extract, its head is the style
      factory itself, which is truthy, not a loader descriptor. */
  lemma PostcssFallbackIsFactory(env: Env, extract: Value)
    ensures !Extracts(env, extract) ==> Head(env, extract, StyleLoaderFactory) == StyleLoaderFactory
    ensures Extracts(env, extract) ==> Head(env, extract, StyleLoaderFactory) == ExtractionLoader
  {
  }

  /** The two-branch postcss rule whose module branch is the inner factory
      on `moduleBase` with `modules: true` and whose general branch is the
      inner factory on the call's options `o`. */
  function PostcssPair(env: Env, moduleBase: Options, o: Options, ident: nat): (r: Counted<Rule>)
    ensures r.ident == ident + 2
    ensures IsOneOfPair(r.value, ModuleCssTest, CssTest)
    ensures |Chain(Branches(r.value)[0])| == 3 && |Chain(Branches(r.value)[1])| == 3
  {
    var first := PostcssBranch(env, moduleBase + map["modules" := Bool(true)], ident);
    var second := PostcssBranch(env, o, first.ident);
    Counted(Rule(Undefined, Undefined, Undefined, None,
                 Some([first.value.(test := ModuleCssTest), second.value])), second.ident)
  }

  /** The alternatives of a postcss pair, position by position. */
  lemma PostcssPairBranches(env: Env, moduleBase: Options, o: Options, ident: nat, i: nat)
    ensures BranchUseAt(PostcssPair(env, moduleBase, o, ident).value, 0, i) == UseAt(PostcssBranch(env, moduleBase + map["modules" := Bool(true)], ident).value, i)
    ensures BranchUseAt(PostcssPair(env, moduleBase, o, ident).value, 1, i) == UseAt(PostcssBranch(env, o, ident + 1).value, i)
  {
  }

  /** `rules.postcss`: the module branch is built from the construction
      options, not the call's. */
  function PostcssRule(env: Env, o: Options, ident: nat): (r: Counted<Rule>)
    ensures r.ident == ident + 2
    ensures IsOneOfPair(r.value, ModuleCssTest, CssTest)
  {
    PostcssPair(env, env.options, o, ident)
  }

  /** The two alternatives of `rules.postcss`, position by position: the
      inner factory on the construction options with `modules: true`, then
      the inner factory on the call's options with the advanced counter. */
  lemma PostcssRuleBranches(env: Env, o: Options, ident: nat, i: nat)
    ensures BranchUseAt(PostcssRule(env, o, ident).value, 0, i) == UseAt(PostcssBranch(env, env.options + map["modules" := Bool(true)], ident).value, i)
    ensures BranchUseAt(PostcssRule(env, o, ident).value, 1, i) == UseAt(PostcssBranch(env, o, ident + 1).value, i)
  {
    PostcssPairBranches(env, env.options, o, ident, i);
  }

  /** In `rules.postcss` the module branch decides extraction from the
      construction options' `extract`, the general branch from the call's. */
  lemma {:induction false} PostcssRuleHeads(env: Env, o: Options, ident: nat)
    ensures BranchUseAt(PostcssRule(env, o, ident).value, 0, 0) == Head(env, Get(env.options, "extract"), StyleLoaderFactory)
    ensures BranchUseAt(PostcssRule(env, o, ident).value, 1, 0) == Head(env, Get(o, "extract"), StyleLoaderFactory)
  {
    var withModules := env.options + map["modules" := Bool(true)];
    assert Get(withModules, "extract") == Get(env.options, "extract");
    PostcssRuleBranches(env, o, ident, 0);
    PostcssBranchAt0(env, withModules, ident);
    PostcssBranchAt0(env, o, ident + 1);
  }

  /** postcss on a map without `ident` takes the counter's next name. */
  lemma PostcssNamesUnnamed(env: Env, options: Options, ident: nat)
    requires "ident" !in options
    ensures OptionOf(Loader(Postcss(env, options - {"modules"}, ident).value), "ident") == Str(PostcssIdent(ident + 1))
  {
    assert "ident" !in options - {"modules"};
  }

  /** In `rules.postcss` the module branch takes the first identifier unless
      the construction options name one, the general branch the second
      unless the call names one. */
  lemma {:induction false} PostcssRuleIdents(env: Env, o: Options, ident: nat)
    ensures "ident" !in env.options ==>
      OptionOf(BranchUseAt(PostcssRule(env, o, ident).value, 0, 2), "ident") == Str(PostcssIdent(ident + 1))
    ensures "ident" !in o ==>
      OptionOf(BranchUseAt(PostcssRule(env, o, ident).value, 1, 2), "ident") == Str(PostcssIdent(ident + 2))
  {
    var withModules := env.options + map["modules" := Bool(true)];
    PostcssRuleBranches(env, o, ident, 2);
    PostcssBranchAt2(env, withModules, ident);
    PostcssBranchAt2(env, o, ident + 1);
    if "ident" !in env.options {
      assert "ident" !in withModules;
      PostcssNamesUnnamed(env, withModules, ident);
    }
    if "ident" !in o {
      PostcssNamesUnnamed(env, o, ident + 1);
    }
  }

  /** In `rules.postcss` the module branch's postcss loader gets the
      construction options, the general branch's the call's: both are the
      postcss loader on that map without `modules`. */
  lemma {:induction false} PostcssRuleLoaders(env: Env, o: Options, ident: nat)
    ensures BranchUseAt(PostcssRule(env, o, ident).value, 0, 2) == Loader(Postcss(env, env.options - {"modules"}, ident).value)
    ensures BranchUseAt(PostcssRule(env, o, ident).value, 1, 2) == Loader(Postcss(env, o - {"modules"}, ident + 1).value)
  {
    var withModules := env.options + map["modules" := Bool(true)];
    assert withModules - {"modules"} == env.options - {"modules"};
    PostcssRuleBranches(env, o, ident, 2);
    PostcssBranchAt2(env, withModules, ident);
    PostcssBranchAt2(env, o, ident + 1);
  }

  /** The inner `less`/`sass`/`fastSass` factory: `modules` goes to
      css-loader and `browsers` to postcss; the rest goes to the
      preprocessor loader, last in the chain. */
  function PreprocessorBranch(env: Env, p: Preprocessor, o: Options, ident: nat): (r: Counted<Rule>)
    ensures r.ident == ident + 1
    ensures IsBranch(r.value, PreprocessorTest(p), 4)
  {
    var modules := Get(o, "modules");
    var browsers := Get(o, "browsers");
    var options := o - {"modules", "browsers"};
    var postcss := Postcss(env, map["browsers" := browsers], ident);
    var css := Css(env, map["importLoaders" := Num(2), "modules" := modules]);
    var preprocessor := PassThrough(PreprocessorLoader(p), options);
    var chain := MakeExtractLoaders(env, options,
      ExtractConfig(Loader(StyleSpec), [Loader(css), Loader(postcss.value), Loader(preprocessor)]));
    Counted(Rule(PreprocessorTest(p), Undefined, Undefined, Some(chain), None), postcss.ident)
  }

  lemma PreprocessorBranchAt0(env: Env, p: Preprocessor, o: Options, ident: nat)
    ensures UseAt(PreprocessorBranch(env, p, o, ident).value, 0) == Head(env, Get(o, "extract"), Loader(StyleSpec))
  {
    assert Get(o - {"modules", "browsers"}, "extract") == Get(o, "extract");
  }

  lemma PreprocessorBranchAt1(env: Env, p: Preprocessor, o: Options, ident: nat)
    ensures UseAt(PreprocessorBranch(env, p, o, ident).value, 1) == Loader(Css(env, map["importLoaders" := Num(2), "modules" := Get(o, "modules")]))
  {
  }

  lemma PreprocessorBranchAt2(env: Env, p: Preprocessor, o: Options, ident: nat)
    ensures UseAt(PreprocessorBranch(env, p, o, ident).value, 2) == Loader(Postcss(env, map["browsers" := Get(o, "browsers")], ident).value)
  {
  }

  lemma PreprocessorBranchAt3(env: Env, p: Preprocessor, o: Options, ident: nat)
    ensures UseAt(PreprocessorBranch(env, p, o, ident).value, 3) == Loader(LoaderSpec(PreprocessorLoader(p), Obj(o - {"modules", "browsers"})))
  {
  }

  /** The chain of a preprocessor branch: the head decided by the call's
      `extract`, css-loader on `importLoaders: 2` and the call's `modules`,
      postcss on the call's `browsers`, and the preprocessor loader on the
      rest of the call's options. */
  lemma {:induction false} PreprocessorBranchChain(env: Env, p: Preprocessor, o: Options, ident: nat)
    ensures UseAt(PreprocessorBranch(env, p, o, ident).value, 0) == Head(env, Get(o, "extract"), Loader(StyleSpec))
    ensures UseAt(PreprocessorBranch(env, p, o, ident).value, 1) == Loader(Css(env, map["importLoaders" := Num(2), "modules" := Get(o, "modules")]))
    ensures UseAt(PreprocessorBranch(env, p, o, ident).value, 2) == Loader(Postcss(env, map["browsers" := Get(o, "browsers")], ident).value)
    ensures UseAt(PreprocessorBranch(env, p, o, ident).value, 3) == Loader(LoaderSpec(PreprocessorLoader(p), Obj(o - {"modules", "browsers"})))
  {
    PreprocessorBranchAt0(env, p, o, ident);
    PreprocessorBranchAt1(env, p, o, ident);
    PreprocessorBranchAt2(env, p, o, ident);
    PreprocessorBranchAt3(env, p, o, ident);
  }

  /** The two-branch preprocessor rule whose module branch is the inner
      factory on `moduleBase` with `modules: true` and whose general branch
      is the inner factory on the call's options `o`. */
  function PreprocessorPair(env: Env, p: Preprocessor, moduleBase: Options, o: Options, ident: nat): (r: Counted<Rule>)
    ensures r.ident == ident + 2
    ensures IsOneOfPair(r.value, PreprocessorModuleTest(p), PreprocessorTest(p))
    ensures |Chain(Branches(r.value)[0])| == 4 && |Chain(Branches(r.value)[1])| == 4
  {
    var first := PreprocessorBranch(env, p, moduleBase + map["modules" := Bool(true)], ident);
    var second := PreprocessorBranch(env, p, o, first.ident);
    Counted(Rule(Undefined, Undefined, Undefined, None,
                 Some([first.value.(test := PreprocessorModuleTest(p)), second.value])), second.ident)
  }

  /** The alternatives of a preprocessor pair, position by position. */
  lemma PreprocessorPairBranches(env: Env, p: Preprocessor, moduleBase: Options, o: Options, ident: nat, i: nat)
    ensures BranchUseAt(PreprocessorPair(env, p, moduleBase, o, ident).value, 0, i) == UseAt(PreprocessorBranch(env, p, moduleBase + map["modules" := Bool(true)], ident).value, i)
    ensures BranchUseAt(PreprocessorPair(env, p, moduleBase, o, ident).value, 1, i) == UseAt(PreprocessorBranch(env, p, o, ident + 1).value, i)
  {
  }

  /** `rules.less`, `rules.sass` and `rules.fastSass`: the module branch is
      built from the construction options, not the call's. */
  function PreprocessorRule(env: Env, p: Preprocessor, o: Options, ident: nat): (r: Counted<Rule>)
    ensures r.ident == ident + 2
    ensures IsOneOfPair(r.value, PreprocessorModuleTest(p), PreprocessorTest(p))
  {
    PreprocessorPair(env, p, env.options, o, ident)
  }

  /** The two alternatives of a preprocessor rule, position by position:
      the inner factory on the construction options with `modules: true`,
      then the inner factory on the call's options with the advanced
      counter. */
  lemma PreprocessorRuleBranches(env: Env, p: Preprocessor, o: Options, ident: nat, i: nat)
    ensures BranchUseAt(PreprocessorRule(env, p, o, ident).value, 0, i) == UseAt(PreprocessorBranch(env, p, env.options + map["modules" := Bool(true)], ident).value, i)
    ensures BranchUseAt(PreprocessorRule(env, p, o, ident).value, 1, i) == UseAt(PreprocessorBranch(env, p, o, ident + 1).value, i)
  {
    PreprocessorPairBranches(env, p, env.options, o, ident, i);
  }

  /** In a preprocessor rule the module branch decides extraction from the
      construction options' `extract`, the general branch from the call's. */
  lemma {:induction false} PreprocessorRuleHeads(env: Env, p: Preprocessor, o: Options, ident: nat)
    ensures BranchUseAt(PreprocessorRule(env, p, o, ident).value, 0, 0) == Head(env, Get(env.options, "extract"), Loader(StyleSpec))
    ensures BranchUseAt(PreprocessorRule(env, p, o, ident).value, 1, 0) == Head(env, Get(o, "extract"), Loader(StyleSpec))
  {
    var withModules := env.options + map["modules" := Bool(true)];
    assert Get(withModules, "extract") == Get(env.options, "extract");
    PreprocessorRuleBranches(env, p, o, ident, 0);
    PreprocessorBranchAt0(env, p, withModules, ident);
    PreprocessorBranchAt0(env, p, o, ident + 1);
  }

  /** In a preprocessor rule the module branch takes the first identifier
      and the general branch the second. */
  lemma {:induction false} PreprocessorRuleIdents(env: Env, p: Preprocessor, o: Options, ident: nat)
    ensures OptionOf(BranchUseAt(PreprocessorRule(env, p, o, ident).value, 0, 2), "ident") == Str(PostcssIdent(ident + 1))
    ensures OptionOf(BranchUseAt(PreprocessorRule(env, p, o, ident).value, 1, 2), "ident") == Str(PostcssIdent(ident + 2))
  {
    var withModules := env.options + map["modules" := Bool(true)];
    PreprocessorRuleBranches(env, p, o, ident, 2);
    PreprocessorBranchAt2(env, p, withModules, ident);
    PreprocessorBranchAt2(env, p, o, ident + 1);
    PostcssOnBrowsers(env, Get(withModules, "browsers"), ident);
    PostcssOnBrowsers(env, Get(o, "browsers"), ident + 1);
  }

  /** In a preprocessor rule the module branch hands the preprocessor the
      construction options, the general branch the call's. */
  lemma {:induction false} PreprocessorRuleLoaders(env: Env, p: Preprocessor, o: Options, ident: nat)
    ensures BranchUseAt(PreprocessorRule(env, p, o, ident).value, 0, 3)
         == Loader(LoaderSpec(PreprocessorLoader(p), Obj(env.options - {"modules", "browsers"})))
    ensures BranchUseAt(PreprocessorRule(env, p, o, ident).value, 1, 3)
         == Loader(LoaderSpec(PreprocessorLoader(p), Obj(o - {"modules", "browsers"})))
  {
    var withModules := env.options + map["modules" := Bool(true)];
    assert withModules - {"modules", "browsers"} == env.options - {"modules", "browsers"};
    PreprocessorRuleBranches(env, p, o, ident, 3);
    PreprocessorBranchAt3(env, p, withModules, ident);
    PreprocessorBranchAt3(env, p, o, ident + 1);
  }

  /** The five style rules with internal and external variants. */
  datatype StyleKind = PlainCss | PostCss | Preprocessed(p: Preprocessor)

  function ModuleTestOf(kind: StyleKind): Value
  {
    match kind
    case PlainCss => ModuleCssTest
    case PostCss => ModuleCssTest
    case Preprocessed(p) => PreprocessorModuleTest(p)
  }

  function GeneralTestOf(kind: StyleKind): Value
  {
    match kind
    case PlainCss => CssTest
    case PostCss => CssTest
    case Preprocessed(p) => PreprocessorTest(p)
  }

  /** The injection fallback each style rule gives the composer: the
      uncalled style factory for `postcss`, the style loader otherwise. */
  function FallbackOf(kind: StyleKind): Value
  {
    if kind == PostCss then StyleLoaderFactory else Loader(StyleSpec)
  }

  /** Any style rule: two alternatives, module-flavoured first, two
      postcss identifiers consumed. */
  function StyleRule(env: Env, kind: StyleKind, o: Options, ident: nat): (r: Counted<Rule>)
    ensures r.ident == ident + 2
    ensures IsOneOfPair(r.value, ModuleTestOf(kind), GeneralTestOf(kind))
    ensures |Chain(Branches(r.value)[0])| >= 3 && |Chain(Branches(r.value)[1])| >= 3
  {
    match kind
    case PlainCss => CssRule(env, o, ident)
    case PostCss => PostcssRule(env, o, ident)
    case Preprocessed(p) => PreprocessorRule(env, p, o, ident)
  }

  /** When neither the construction options nor the call set `extract`, both
      alternatives of every style rule leave the decision to the environment,
      with the rule's own fallback. */
  lemma {:induction false} StyleRuleHeadsWhenUnset(env: Env, kind: StyleKind, o: Options, ident: nat)
    requires "extract" !in env.options && "extract" !in o
    ensures BranchUseAt(StyleRule(env, kind, o, ident).value, 0, 0) == Head(env, Undefined, FallbackOf(kind))
    ensures BranchUseAt(StyleRule(env, kind, o, ident).value, 1, 0) == Head(env, Undefined, FallbackOf(kind))
  {
    match kind
    case PlainCss => CssRuleHeads(env, o, ident);
    case PostCss => PostcssRuleHeads(env, o, ident);
    case Preprocessed(p) => PreprocessorRuleHeads(env, p, o, ident);
  }

  function StyleFactory(env: Env, kind: StyleKind): (f: RuleFactory)
  {
    (o: Options, n: nat) => StyleRule(env, kind, o, n)
  }

  /** `rules.<style>.internal`: the style rule restricted to first-party
      code; the `oneOf` pair is untouched and no `include` is set. */
  function Internal(env: Env, kind: StyleKind): (f: RuleFactory)
    ensures forall o: Options, n: nat ::
      && f(o, n).value.excludes == env.vendorRegex
      && f(o, n).value.includes == Undefined
      && f(o, n).value.oneOf == StyleRule(env, kind, o, n).value.oneOf
      && f(o, n).ident == n + 2
  {
    MakeInternalOnly(env, StyleFactory(env, kind))
  }

  /** `rules.<style>.external`: the style rule restricted to dependency
      code; the `oneOf` pair is untouched and no `exclude` is set. */
  function External(env: Env, kind: StyleKind): (f: RuleFactory)
    ensures forall o: Options, n: nat ::
      && f(o, n).value.includes == env.vendorRegex
      && f(o, n).value.excludes == Undefined
      && f(o, n).value.oneOf == StyleRule(env, kind, o, n).value.oneOf
      && f(o, n).ident == n + 2
  {
    MakeExternalOnly(env, StyleFactory(env, kind))
  }
}

=== FILE: values.dfy ===
/**
  JavaScript values as the atom factories see them.

  Options objects are finite maps from property names to values. A property
  that is present with the value `undefined` is kept apart from a missing
  property, because object spread copies the former and not the latter.
  Regular-expression literals are opaque `Pattern`s: the model never matches
  them against a path, it only tracks where they are placed.
 */
module Values {

  datatype Option<+T> = None | Some(value: T)

  /** The loader modules the factories name. Module resolution is not
      modelled: each loader is an opaque identity, distinct from the others.
      `cssLiteral` and `astroturf` both resolve `astroturf/loader`, so they
      share `AstroturfLoader`. */
  datatype LoaderName =
    | JsonLoader | YamlLoader | NullLoader | RawLoader | StyleLoader
    | MiniCssExtractLoader | CssLoader | AstroturfLoader | PostcssLoader
    | LessLoader | SassLoader | FastSassLoader | FileLoader | UrlLoader
    | BabelLoader | ImportsLoader | ExportsLoader

  datatype Value =
    | Undefined
    | Null
    | Bool(b: bool)
    | Num(n: int)
    | Str(s: string)
    | Arr(items: seq<Value>)
    | Obj(fields: map<string, Value>)
    /** a regular-expression literal, by its source text */
    | Pattern(source: string)
    /** a function supplied by a caller, by name */
    | Func(name: string)
    /** a loader descriptor used as a value (a `fallback`, an entry of `use`) */
    | Loader(spec: LoaderSpec)
    /** the `loaders.style` factory itself, not called */
    | StyleLoaderFactory
    /** the `plugins` callback that `loaders.postcss` builds; it closes over
        the resolved browser list and the caller's extra plugins */
    | PostcssPlugins(browsers: Value, extra: Value)
    /** `JSON.stringify` of a value; the serializer itself is not modelled */
    | JsonOf(of: Value)

  /** A loader descriptor `{ loader, options }`. The bare loaders (`json`,
      `style`, ...) have no `options` property; reading it gives `undefined`,
      which is what `Undefined` stands for here. */
  datatype LoaderSpec = LoaderSpec(loader: LoaderName, options: Value)

  type Options = map<string, Value>

  /** A value paired with the `ident` counter as it stands after computing it. */
  datatype Counted<+T> = Counted(value: T, ident: nat)

  /** Property read: a missing property reads as `undefined`. */
  function Get(o: Options, key: string): Value
  {
    if key in o then o[key] else Undefined
  }

  /** A destructuring default `x = d`: it replaces `undefined` only, never `null`. */
  function Default(v: Value, d: Value): Value
  {
    if v == Undefined then d else v
  }

  /** Loose equality with `undefined` (`v == undefined`). */
  predicate Nullish(v: Value)
  {
    v == Undefined || v == Null
  }

  /** JavaScript truthiness. Every object, array and function is truthy, even
      an empty one. `JSON.stringify` returns `undefined` for `undefined` and for
      functions and a non-empty string otherwise. */
  predicate Truthy(v: Value)
  {
    match v
    case Undefined => false
    case Null => false
    case Bool(b) => b
    case Num(n) => n != 0
    case Str(s) => s != ""
    case JsonOf(x) => !(x.Undefined? || x.Func? || x.StyleLoaderFactory? || x.PostcssPlugins?)
    case _ => true
  }

  /** The own enumerable properties `{ ...v }` copies out of an `Obj` value.
      Every other value gives no keys here, including a `Loader` entry,
      whose `loader` and `options` properties are not spread. */
  function SpreadOf(v: Value): Options
  {
    if v.Obj? then v.fields else map[]
  }

  /** The options map of a loader entry, or the empty map for anything else. */
  function OptionsOf(v: Value): Options
  {
    if v.Loader? && v.spec.options.Obj? then v.spec.options.fields else map[]
  }

  /** The option `key` of a loader value, `Undefined` when it has none. */
  function OptionOf(v: Value, key: string): Value
  {
    Get(OptionsOf(v), key)
  }

  predicate IsLoader(v: Value, name: LoaderName)
  {
    v.Loader? && v.spec.loader == name && v.spec.options.Obj?
  }

  /** Every property of `given`, other than those in `except`, appears in `m`
      with the caller's value. */
  ghost predicate Carries(m: Options, given: Options, except: set<string>)
  {
    forall k :: k in given && k !in except ==> k in m && m[k] == given[k]
  }

  /** `m` is `{ ...defaults, ...given }`: every given key wins, every default
      key the caller did not give keeps its built-in value, nothing else. */
  ghost predicate CallerWins(m: Options, defaults: Options, given: Options)
  {
    && m.Keys == defaults.Keys + given.Keys
    && Carries(m, given, {})
    && forall k :: k in defaults && k !in given ==> m[k] == defaults[k]
  }
}
